=== FILE: README.md ===
# neo-unicode buffers, text and encodings in Dafny

A model of the core of neo-unicode, a C++ library of immutable,
reference-counted Unicode strings:

- `neo::code_unit_buffer<T>`: a tagged union of three modes.
  - *literal*: a borrowed pointer and a length.
  - *small*: an inline array of `small_size` = 32 units, one slot kept for the terminator.
  - *dynamic*: a pointer to a heap block holding a reference count, a size and a trailing array.

  Copying shares the block and increments its count. Releasing decrements the count and frees the block on the last reference. Moving steals the block.
- `neo::basic_text<Enc>`: one buffer tagged with its internal encoding. Its accessors delegate to the buffer. `encode<D>()` hands back the stored buffer when `D` is the internal encoding, and otherwise asks `D::encode_from`.
- The legacy `neo::unicode` class: an earlier `char`-only version of the same design. Its small mode holds up to and including 32 units with no terminator.
- The encoding descriptors `utf8`, `utf16`, `utf32` and the platform-dependent `wide`, and the conversion `encoder<utf8, wide>`.

Buffers are values over an explicit heap of blocks (`BlockHeap`). A block records its count, its size, its units plus a terminator slot, and whether it has been freed. Freed blocks stay in the map, so "freed once and never touched again" can be stated. Each buffer operation takes the heap and returns the new one. Two "world" modules (`BufferOwnership`, `LegacyOwnership`) hold a heap plus the sequence of live objects. They prove the central invariant: every live block's count equals the number of objects pointing at it.

Files:

- `wrappers.dfy`: `Option` and `Result`.
- `encodings.dfy`: the descriptor registry.
- `block_heap.dfy`: blocks, reference shifts, holder counting, and how the count invariant survives each kind of transition.
- `code_unit_buffer.dfy`: the buffer.
- `buffer_ownership.dfy`: the world of live buffers.
- `wide_encoder.dfy`: `wide::encode_from` and `encoder<utf8, wide>`.
- `text.dfy`: `basic_text`.
- `legacy_unicode.dfy`: the legacy `unicode` class.
- `legacy_ownership.dfy`: the world of live legacy objects, including what the legacy move assignment does to it.

Conventions:

- The self-assignment guard the source lacks is replaced by a `Distinct` precondition. Two different objects on one block account for two references.
- Storage the source leaves indeterminate is filled with zeros (`Uninit`). The empty small buffer (`CodeUnitBuffer.Empty`, `LegacyUnicode.Default`) is built from such zeros as well. "## Left out" lists every contract that, through these values, promises more than the source.
- The platform (`_WIN32` or not) is a parameter.
- The external codec behind `encoder<utf8, wide>` is a parameter (`WideEncoder.Codec`) with a measuring call and a writing call.

## Model

| member | source | states |
|---|---|---|
| Encodings.Underlying | source/neo/unicode/encodings/wide.hpp:15-19 | `wide` delegates to utf16 on Windows and to utf32 everywhere else |
| Encodings.CodeUnitType | source/neo/unicode/encodings/wide.hpp:20 | `wide` alone uses `wchar_t`; the fixed-width encodings' code-unit types (utf8.hpp:13, utf16.hpp:13, utf32.hpp:13) have a platform-independent width |
| Encodings.EncodingForCharType | source/neo/unicode/encodings/utf8.hpp:21 | the char-type mapping picks the encoding whose code-unit type is that char type (`char`→utf8, `char16_t`→utf16, `char32_t`→utf32, `wchar_t`→wide) |
| Encodings.BufferTypeOf | source/neo/unicode/encodings/utf8.hpp:13-14 | each descriptor's buffer type is `code_unit_buffer` over its own code-unit type, and that type maps back to the same encoding |
| Encodings.UnitWidth | source/neo/unicode/encodings/utf8.hpp:13 | utf-8 has 1-byte units, utf-16 2-byte (utf16.hpp:13), utf-32 4-byte (utf32.hpp:13), and `wide` 2 bytes on Windows and 4 elsewhere (wide.hpp:20); with `CodeUnitType` this fixes which character type each encoding uses |
| Encodings.SizeOf | source/neo/unicode/encodings/wide.hpp:20 | `char` is 1 byte, `char16_t` 2, `char32_t` 4, and `wchar_t` 2 on Windows and 4 elsewhere |
| Encodings.Name | source/neo/unicode/encodings/wide.hpp:23-25 | `wide::get_name()` is the underlying encoding's name; the others answer "utf-8", "utf-16", "utf-32" |
| Encodings.CharTypeBijection | source/neo/unicode/encodings/utf16.hpp:13-21 | the code-unit type of an encoding and the encoding of a char type are inverse maps over the closed registry |
| Encodings.BaseNamesDistinct | source/neo/unicode/encodings/utf32.hpp:16-18 | the three fixed-width encodings have pairwise different names |
| Encodings.WideMatchesUnderlying | source/neo/unicode/encodings/wide.hpp:14-25 | `wide` has the code-unit width and the name of the encoding it delegates to |
| BlockHeap.Allocate | source/neo/unicode/code_unit_buffer.hpp:209-223 | `_init_dynamic` yields a fresh block, unseen before, with one reference, the size recorded and a terminator at index `size`; no other block changes |
| BlockHeap.DecRef | source/neo/unicode/code_unit_buffer.hpp:165-176 | the count drops by exactly one and the block is freed exactly when the previous count was 1 |
| BlockHeap.IncRef | source/neo/unicode/code_unit_buffer.hpp:333-334 | sharing a block adds exactly one reference and keeps it live |
| BlockHeap.UnheldIsFreed | source/neo/unicode/code_unit_buffer.hpp:165-176 | under the count invariant, a block nobody points at has been freed |
| BlockHeap.ReplaceKeepsRefs | source/neo/unicode/code_unit_buffer.hpp:324-345 | replacing one object's block while dropping the old reference and taking the new one keeps counts equal to holders |
| BlockHeap.RemoveKeepsRefs | source/neo/unicode/code_unit_buffer.hpp:256-260 | an object leaving while its reference is dropped keeps counts equal to holders |
| BlockHeap.AppendKeepsRefs | source/neo/unicode/code_unit_buffer.hpp:301-303 | a new object that shares a block, holds none or holds a fresh one keeps counts equal to holders |
| BlockHeap.MoveKeepsRefs | source/neo/unicode/code_unit_buffer.hpp:351-363 | a steal (destination takes the source's block, source holds none, destination's old reference dropped) keeps counts equal to holders |
| CodeUnitBuffer.Data | source/neo/unicode/code_unit_buffer.hpp:368-378 | `data()` reads the active mode only: the 32-slot inline array, the block's array with its terminator slot, or the borrowed memory |
| CodeUnitBuffer.CodeUnitSize | source/neo/unicode/code_unit_buffer.hpp:390-400 | the recorded size never runs past `data()`, and the owning modes keep a terminator right after it |
| CodeUnitBuffer.ByteSize | source/neo/unicode/code_unit_buffer.hpp:383-385 | `byte_size()` is the number of units in the logical contents times the unit width, in every mode |
| CodeUnitBuffer.DefaultIsEmpty | source/neo/unicode/code_unit_buffer.hpp:247-251 | the default buffer is small, holds no block, has size 0 and `data()[0] == 0` |
| CodeUnitBuffer.PrepareStorage | source/neo/unicode/code_unit_buffer.hpp:225-240 | small mode iff `n < 32` (31 small, 32 dynamic); size `n` recorded with a terminator at `n`; dynamic mode gets a fresh block and small mode leaves the heap alone |
| CodeUnitBuffer.Overwrite | source/neo/unicode/code_unit_buffer.hpp:286-292 | writing through the prepared pointer makes the contents exactly the written units and changes only that block's payload |
| CodeUnitBuffer.RangeConstruct | source/neo/unicode/code_unit_buffer.hpp:282-293 | the range constructor's contents are the input units in order, terminated, with mode chosen by the 32 threshold; copying into the prepared block keeps its size |
| CodeUnitBuffer.CopyUnits | source/neo/unicode/code_unit_buffer.hpp:288-292 | the copy loop writes the units in order over the storage's first slots and leaves the rest |
| CodeUnitBuffer.FromRange | source/neo/unicode/code_unit_buffer.hpp:282-293 | preparing storage and copying unit by unit builds exactly the buffer and heap `RangeConstruct` describes |
| CodeUnitBuffer.CStrLen | source/neo/unicode/code_unit_buffer.hpp:295-296 | `char_traits::length` is the index of the first terminator: a 0 there and none before |
| CodeUnitBuffer.FromCString | source/neo/unicode/code_unit_buffer.hpp:295-296 | the pointer constructor copies the units before the first terminator and terminates them |
| CodeUnitBuffer.Fill | source/neo/unicode/code_unit_buffer.hpp:410-415 | `fill(len, fn)` chooses storage like the range constructor and the buffer holds exactly what the one writer call produced, terminated |
| CodeUnitBuffer.FromStringLiteral | source/neo/unicode/code_unit_buffer.hpp:406-408 | a named literal is literal mode, owns no block and touches no heap |
| CodeUnitBuffer.FromArray | source/neo/unicode/code_unit_buffer.hpp:268-271 | the array constructor is literal mode and owns no block |
| CodeUnitBuffer.LiteralReadsThrough | source/neo/unicode/code_unit_buffer.hpp:193-197 | a literal's `data()` is the recorded pointer, uncopied, and its size the recorded length |
| CodeUnitBuffer.ArrayDropsTerminator | source/neo/unicode/code_unit_buffer.hpp:268-271 | an array of N units gives size N-1 over the same memory |
| CodeUnitBuffer.ReleaseDynamic | source/neo/unicode/code_unit_buffer.hpp:165-180 | release drops exactly one reference, frees exactly on the last one, and leaves an empty small buffer |
| CodeUnitBuffer.Destroy | source/neo/unicode/code_unit_buffer.hpp:256-260 | the destructor drops the buffer's own reference and nothing else; non-dynamic buffers leave the heap unchanged |
| CodeUnitBuffer.CopyAssign | source/neo/unicode/code_unit_buffer.hpp:324-345 | the destination becomes the source (mode, size and contents) while the destination's reference is dropped and the source's block gains one |
| CodeUnitBuffer.CopyConstruct | source/neo/unicode/code_unit_buffer.hpp:301-303 | a copy equals the source and adds exactly one reference to a dynamic source's block |
| CodeUnitBuffer.MoveConstruct | source/neo/unicode/code_unit_buffer.hpp:310-319 | a dynamic source hands over its block with no count change and is left empty; any other source is copied and kept |
| CodeUnitBuffer.MoveAssign | source/neo/unicode/code_unit_buffer.hpp:351-363 | the destination's reference is dropped once; the destination gets the source's contents; a dynamic source is emptied, any other kept |
| CodeUnitBuffer.MoveFromNonDynamicIsCopy | source/neo/unicode/code_unit_buffer.hpp:356-361 | from a literal or small source, move assignment is exactly copy assignment |
| CodeUnitBuffer.ExtendsKeepsContents | source/neo/unicode/code_unit_buffer.hpp:35-38 | allocating new blocks never changes what an existing buffer reads |
| CodeUnitBuffer.ShiftKeepsContents | source/neo/unicode/code_unit_buffer.hpp:35-38 | changing reference counts never changes what a buffer whose block stays live reads: the units are immutable |
| CodeUnitBuffer.ReleaseHintMismatch | source/neo/unicode/code_unit_buffer.hpp:170-173 | the size passed to `deallocate` differs from the size allocated, for every dynamic size and unit width |
| CodeUnitBuffer.ReleaseHintMatchesAllocation | source/neo/unicode/code_unit_buffer.hpp:209-223 | while block sizes are kept, the hint computed from the block at release equals the byte count allocated for it, and the hint as written does not |
| BufferOwnership.Construct | source/neo/unicode/code_unit_buffer.hpp:282-293 | a constructed buffer joins the world with the given contents, dynamic iff at least 32 units and then on a fresh block, and the invariant holds; like every world transition it keeps each block's size |
| BufferOwnership.AddLiteral | source/neo/unicode/code_unit_buffer.hpp:406-408 | a literal joins without touching the heap and reads its units |
| BufferOwnership.CopyNew | source/neo/unicode/code_unit_buffer.hpp:301-303 | copy construction keeps the invariant, gives the copy the source's contents, leaves every other buffer's contents and never revives a freed block |
| BufferOwnership.Assign | source/neo/unicode/code_unit_buffer.hpp:324-345 | copy assignment between distinct buffers keeps the invariant, copies the contents and changes no other buffer's contents |
| BufferOwnership.MoveNew | source/neo/unicode/code_unit_buffer.hpp:310-319 | move construction keeps the invariant and the heap, and the new buffer reads what the source read |
| BufferOwnership.MoveInto | source/neo/unicode/code_unit_buffer.hpp:351-363 | move assignment keeps the invariant, moves the contents and leaves the other buffers' contents |
| BufferOwnership.Destroy | source/neo/unicode/code_unit_buffer.hpp:256-260 | destruction keeps the invariant and everyone else's contents, and frees the block exactly when the count was 1 |
| BufferOwnership.ReferencedIsCounted | source/neo/unicode/code_unit_buffer.hpp:116-118 | a block some live buffer points at is live, and its count is the number of live buffers holding it, so at least one |
| BufferOwnership.AllDestroyedAllFreed | source/neo/unicode/code_unit_buffer.hpp:165-176 | once no buffer is live, every block ever allocated has been freed: nothing leaks |
| BufferOwnership.CopyMany | source/neo/unicode/code_unit_buffer.hpp:35-38 | one large string copied `copies` times allocates exactly one block; every buffer points at it with the same contents and its count is `copies + 1` |
| BufferOwnership.CopyThenDestroyAll | source/neo/unicode/code_unit_buffer.hpp:35-38 | destroying all those copies frees that one block, which was the only one ever allocated and still records its allocated size |
| WideEncoder.Overlay | source/neo/unicode/encodings/wide.cpp:13-15 | the codec writes no more than the destination holds; slots it does not reach keep their value |
| WideEncoder.DoEncode | source/neo/unicode/encodings/wide.cpp:5-16 | fails iff the measured size in `wchar_t` units is 0 or an error was reported; otherwise a buffer of exactly that many units whose slots the codec wrote hold what it wrote, and the heap only grows |
| WideEncoder.Utf8ToWide | source/neo/unicode/encodings/wide.hpp:37-39 | the codec receives exactly the buffer's logical contents and size, whatever its mode |
| WideEncoder.EncodeFrom | source/neo/unicode/encodings/wide.hpp:27-30 | `wide::encode_from<From>` is `encoder<From, wide>::encode`; only utf8 has one |
| WideEncoder.EmptySourceFails | source/neo/unicode/encodings/wide.cpp:8-11 | an empty source that measures to zero bytes fails even without an error |
| EncodedText.Data | source/neo/unicode/text.hpp:85-87 | `data()` is the buffer's `data()` |
| EncodedText.CodeUnitSize | source/neo/unicode/text.hpp:99-101 | `code_unit_size()` is the buffer's, the length of its contents |
| EncodedText.ByteSize | source/neo/unicode/text.hpp:92-94 | `byte_size()` is the buffer's, the unit count times the internal encoding's unit width, for the default `BufferType` |
| EncodedText.Default | source/neo/unicode/text.hpp:62 | a default text wraps the default buffer |
| EncodedText.DefaultIsEmpty | source/neo/unicode/text.hpp:62 | a default text has no units, no bytes and a terminator at index 0 |
| EncodedText.FromArray | source/neo/unicode/text.hpp:67-70 | the array constructor wraps a literal over the array's first N-1 units |
| EncodedText.HelloHasSixBytes | tests/unicode.cpp:15-17 | the literal "Hello!" gives `byte_size() == 6` |
| EncodedText.FromPointer | source/neo/unicode/text.hpp:76-80 | the pointer constructor copies up to the first terminator and terminates the copy |
| EncodedText.FromCharPointerScenario | tests/unicode.cpp:21-29 | "This is a string" by pointer gives 16 bytes, `data()[16] == 0` and the same characters |
| EncodedText.FromStringLiteral | source/neo/unicode/text.hpp:106-111 | the named literal is literal mode over that pointer and length, without touching the heap |
| EncodedText.EncodeFrom | source/neo/unicode/text.hpp:120-123 | the dispatch asks the destination's `encode_from` with the internal encoding; only `wide` has one |
| EncodedText.Encode | source/neo/unicode/text.hpp:116-129 | the result is the stored buffer itself iff the target is the internal encoding, otherwise the conversion; the text's own contents never change |
| EncodedText.SameEncodingIsIdentity | source/neo/unicode/text.hpp:116-118 | encoding to the internal encoding gives the same units and allocates nothing |
| EncodedText.Utf8ToWideConverts | source/neo/unicode/text.hpp:120-123 | a utf8 text that the codec accepts converts to a `wide` buffer of the measured size |
| LegacyUnicode.RawBegin | source/neo/unicode/unicode.hpp:208-219 | `begin()` reads the active mode only: the 32-slot inline array with no terminator slot, the block's array, or the borrowed memory |
| LegacyUnicode.RawSize | source/neo/unicode/unicode.hpp:221-233 | `end() - begin()` is the active mode's stored size and never runs past the memory at `begin()` |
| LegacyUnicode.Data | source/neo/unicode/unicode.hpp:245 | `data()` is `raw().begin()` |
| LegacyUnicode.Default | source/neo/unicode/unicode.hpp:120 | the default object is small with size 0 |
| LegacyUnicode.FromRange | source/neo/unicode/unicode.hpp:81-98 | small iff at most 32 units, else a fresh block with one reference and a terminator at `size`; the contents are the input units |
| LegacyUnicode.FromUtf8 | source/neo/unicode/unicode.hpp:180 | `from_utf8` is the range constructor |
| LegacyUnicode.Utf8Decode | source/neo/unicode/unicode.hpp:248-250 | `utf8_t::decode` is `from_utf8`, and its contents are the input units |
| LegacyUnicode.FromStdString | source/neo/unicode/unicode.hpp:168-170 | the string constructor's copy-through-move and temporary's destruction leave exactly what decoding alone leaves, heap included |
| LegacyUnicode.FromStringLiteral | source/neo/unicode/unicode.hpp:182-184 | a named literal is literal mode and owns no block |
| LegacyUnicode.FromArray | source/neo/unicode/unicode.hpp:172-174 | the array constructor is literal mode and owns no block |
| LegacyUnicode.LiteralU | source/neo/unicode/unicode.hpp:254 | `_u` is `from_string_literal` |
| LegacyUnicode.LiteralRawView | source/neo/unicode/unicode.hpp:113-117 | a literal's raw view is the recorded pointer and length, uncopied |
| LegacyUnicode.ArrayRawView | source/neo/unicode/unicode.hpp:172-174 | an array of N units views N-1 of them in place |
| LegacyUnicode.DecodedRawView | source/neo/unicode/unicode.hpp:206-233 | the raw view of a decoded range spans exactly the input units, whichever mode was chosen |
| LegacyUnicode.ReleaseDynamic | source/neo/unicode/unicode.hpp:101-109 | release drops exactly one reference and frees (nulling the pointer) exactly on the last one; the mode stays dynamic |
| LegacyUnicode.Destroy | source/neo/unicode/unicode.hpp:122-126 | the destructor drops the object's own reference only, and only in dynamic mode |
| LegacyUnicode.CopyAssign | source/neo/unicode/unicode.hpp:139-153 | the destination becomes the source while its reference is dropped and the source's block gains one |
| LegacyUnicode.CopyConstruct | source/neo/unicode/unicode.hpp:128 | a copy equals the source and adds one reference to a dynamic source's block |
| LegacyUnicode.MoveConstruct | source/neo/unicode/unicode.hpp:130-137 | because the constructor tests its own default mode, a move is a copy: the source is untouched and a dynamic block gains a reference |
| LegacyUnicode.MoveAssignAsWritten | source/neo/unicode/unicode.hpp:155-166 | it dereferences null exactly when a non-dynamic source meets the sole holder of a block; from a dynamic source it leaves the source with the destination's released pointer |
| LegacyUnicode.MoveAssign | source/neo/unicode/unicode.hpp:155-166 | corrected: the destination's reference is dropped once, the contents move, a dynamic source is emptied |
| LegacyOwnership.Construct | source/neo/unicode/unicode.hpp:81-98 | a decoded object joins the world with the given contents, dynamic iff over 32 units, and the invariant holds |
| LegacyOwnership.CopyNew | source/neo/unicode/unicode.hpp:128 | copy construction keeps the invariant and everyone's contents |
| LegacyOwnership.MoveNew | source/neo/unicode/unicode.hpp:130-137 | the copying move constructor keeps the invariant, counting one more reference |
| LegacyOwnership.Assign | source/neo/unicode/unicode.hpp:139-153 | copy assignment between distinct objects keeps the invariant and the other objects' contents |
| LegacyOwnership.MoveInto | source/neo/unicode/unicode.hpp:155-166 | the corrected move assignment keeps the invariant and moves the contents |
| LegacyOwnership.Destroy | source/neo/unicode/unicode.hpp:122-126 | destruction keeps the invariant and frees exactly when the count was 1 |
| LegacyOwnership.MoveAsWrittenAt | source/neo/unicode/unicode.hpp:155-166 | the world after the as-written move assignment: the destination slot holds the source's value |
| LegacyOwnership.MoveAsWrittenFromSmallBreaksCount | source/neo/unicode/unicode.hpp:161-162 | from a non-dynamic source into a shared block, the block is released twice: the invariant breaks, and a block shared by two is freed under the other holder |
| LegacyOwnership.MoveAsWrittenFromSmallUnsharedCrashes | source/neo/unicode/unicode.hpp:155-162 | from a non-dynamic source into a block's sole holder, the second release dereferences null |
| LegacyOwnership.MoveAsWrittenFromDynamicSwaps | source/neo/unicode/unicode.hpp:159-160 | from a dynamic source, the swap leaves the source holding the destination's released block: the count falls short, or the source holds null |

## Left out

- Atomicity of the reference count: the model is sequential and the count is a plain integer.
- Allocator plumbing and memory layout: `allocator_traits`, `select_on_container_copy_construction`, the allocator member, `reinterpret_cast` and the trailing-array layout are abstracted as "allocate a block" and "free a block". The one arithmetic fact about the sizes is recorded under Findings.
- Allocation failure: `std::bad_alloc` from `Alloc::allocate` (`code_unit_buffer.hpp:218`) and from `new char[]` (`unicode.hpp:90`) is not modelled. `BlockHeap.Allocate` always succeeds, so every constructor that allocates (the range, pointer and `fill` paths of both buffer types, and the `wide` conversion) assumes the allocation succeeds.
- Lifetime of literal pointers: a caller guarantee; a literal is an immutable sequence with no owner.
- Self-assignment: neither buffer type guards against it. It is excluded by the `Distinct` precondition and not modelled.
- Indeterminate storage is modelled as zeros: the unwritten small-array slots, a fresh block's payload, and a legacy non-dynamic destination's pointer (modelled as null). The source gives these no value, so the following clauses promise more than the source does:
- CodeUnitBuffer.PrepareStorage: its `Data(...)[..n] == Uninit(n)` clause states zeros in slots `_prepare_storage` leaves uninitialised.
- CodeUnitBuffer.Fill: the writer is applied to `Uninit(len)`, whereas the source hands `fn` uninitialised storage. A writer that reads its slots before writing them gets zeros here and indeterminate values in the source.
- CodeUnitBuffer.MoveConstruct: its `src.Dynamic? ==> r.src == Empty()` clause promises zeros in small slots 1..31 of the emptied source. `_steal_dynamic` (`code_unit_buffer.hpp:199-207`) writes only the size and `arr[0]`, so those slots hold whatever the union held before.
- CodeUnitBuffer.MoveAssign: its `src.Dynamic? ==> r.src == Empty()` clause promises the same zeros in the emptied source, for the same reason.
- EncodedText.Default: its `t.buffer == B.Empty()` clause promises zeros in slots 1..31. The default constructor (`code_unit_buffer.hpp:247-251`) writes only the size and `arr[0]`.
- LegacyUnicode.MoveAssign: the corrected assignment ensures `r.src == Default()` for a dynamic source, which promises zeros in the whole 32-slot array of the emptied source. The legacy default constructor (`unicode.hpp:120`) writes only the size.
- WideEncoder.DoEncode: when the codec writes fewer than the measured units, its `Overlay(Uninit(...), ...)` clause promises zeros in the remaining slots, which are indeterminate in the source. Its `WritesPrefix` clause states only the written slots and does not depend on the zeros.
- Width of the reference counts and sizes: the legacy count is a 32-bit `std::atomic_uint` (`unicode.hpp:62`) and the buffer's is `std::atomic<std::size_t>` (`code_unit_buffer.hpp:118`); sizes are `std::size_t`. Here they are unbounded `nat`s, so `RefsMatch` never meets a wrapped count. In the source, 2^32 live copies of one legacy object wrap its count, and a later release frees a block that is still shared.
- EncodedText.ByteSize: `basic_text`'s second template parameter `BufferType` (`text.hpp:16-20`) is fixed to its default, `buffer_type_t<InternalEncoding>`. So `byte_size()` is stated with the internal encoding's unit width. A non-default `CodeUnitBuffer` whose value type differs from the encoding's code-unit type is not modelled; the source instantiates none.
- The width of `wchar_t` is taken as 2 bytes on Windows and 4 elsewhere, matching the encoding `wide` delegates to.
- Encoding pairs without an encoder fail to compile in the source. Here they return `Err(Unsupported)`. That covers every `encode_from` except `wide`'s and every `encoder` except `encoder<utf8, wide>`. The `utf16`, `utf32` and `utf8` descriptors declare no `encode_from`.
- `encoder<utf8, utf32>` is only declared, with no definition; it is left out.
- The external codec (utf8rewind's `utf8towide`) is an opaque parameter. So are `encodings/utf16.cpp` and `utf8_t::encode`/`utf16_t::encode`/`utf16_t::decode` from `unicode.cpp`, including the latter's retry loop; these are library wrappers. The `std::runtime_error` thrown by `do_encode` becomes `Err(ConversionFailed)`.
- The legacy `unicode(const Char (&)[N])` template for non-`char` types cannot be instantiated (only `decoder_for<char>` exists); it is left out.
- The legacy `raw() &&` overload, which moves the object into the view, is left out. The view's `begin`/`end` are modelled for the `const &` overload.
- Stream output (`operator<<` for `basic_text` and `unicode`), `views.hpp`, `bytes.hpp`, `concepts.hpp`, `native.hpp`, `encodings.hpp`, `all.hpp`, `encoders.hpp` and the examples: output, iteration adaptors, type-level plumbing and benchmarks.
- The legacy move constructor is modelled as written: it is always a copy, because it tests its own default mode. Had it tested the source's mode as evidently meant, the source would keep dynamic mode with a null pointer. It is correct as a copy, so no finding is claimed for it.

## Findings

| source | as written | input that shows it | evidently intended | confidence | as-written member | corrected member |
|---|---|---|---|---|---|---|
| source/neo/unicode/unicode.hpp:155-166 | the move assignment releases the destination's block, then for a non-dynamic source calls copy assignment, which finds the mode still dynamic and releases the same block again | destination dynamic on a block shared with one other object (count 2), source small: the block is freed while the other object still uses it; with count 1 the second release dereferences null | release the destination's block once, then copy the source | high (not executed) | LegacyOwnership.MoveAsWrittenFromSmallBreaksCount | LegacyUnicode.MoveAssign |
| source/neo/unicode/unicode.hpp:159-160 | for a dynamic source the pointers are swapped, so the source keeps the destination's block, already released, or a null pointer | destination and source dynamic on different blocks, the destination's shared by a third object: that block's count is one less than its holders; with count 1 the source is left dynamic with a null pointer that its destructor dereferences | steal the source's block and leave the source empty | high (not executed) | LegacyOwnership.MoveAsWrittenFromDynamicSwaps | LegacyUnicode.MoveAssign |
| source/neo/unicode/code_unit_buffer.hpp:170-173 | `deallocate` is given `(size + sizeof(value_type)) + sizeof(dynamic_data)` while `_init_dynamic` allocated `sizeof(dynamic_data) + size * sizeof(value_type)` (line 218) | any `char` block of 32 units: the hint is one byte more than the allocation | pass the allocated size | high (not executed) | CodeUnitBuffer.ReleaseHintMismatch | CodeUnitBuffer.ReleaseHintMatchesAllocation |

=== FILE: block_heap.dfy ===
/**
 * The heap of reference-counted blocks behind the dynamic mode of both buffer
 * types. A block holds a reference count, the recorded size and a trailing
 * array of `size` code units plus one terminator slot. The atomic counter is a
 * plain integer here: the model is sequential. A freed block stays in the map
 * with `freed` set, so that "freed at most once" can be stated.
 */
module BlockHeap {
  import opened Wrappers

  type BlockId = nat

  /** A code unit, by value; 0 is the terminator. */
  type Unit = nat

  datatype Block = Block(refs: nat, size: nat, arr: seq<Unit>, freed: bool)

  datatype Heap = Heap(blocks: map<BlockId, Block>, next: BlockId)

  /** Storage the source leaves indeterminate; the model fills it with zeros. */
  function Uninit(n: nat): (s: seq<Unit>)
    ensures |s| == n
  {
    seq(n, _ => 0)
  }

  /**
   * A block's shape: the trailing array has one slot past `size`, holding the
   * terminator; a live block has at least one reference and a freed one none.
   */
  predicate BlockOk(k: Block)
  {
    && |k.arr| == k.size + 1
    && k.arr[k.size] == 0
    && (!k.freed ==> k.refs >= 1)
    && (k.freed ==> k.refs == 0)
  }

  predicate HeapOk(h: Heap)
  {
    forall id :: id in h.blocks ==> id < h.next && BlockOk(h.blocks[id])
  }

  /** The block is allocated and not yet freed. */
  predicate Live(h: Heap, id: BlockId)
  {
    id in h.blocks && !h.blocks[id].freed
  }

  function EmptyHeap(): (h: Heap)
    ensures HeapOk(h) && h.blocks == map[]
  {
    Heap(map[], 0)
  }

  /** `h'` is `h` plus the block `id`, newly allocated with one reference. */
  predicate Fresh(h: Heap, h': Heap, id: BlockId)
  {
    && id !in h.blocks
    && h'.blocks.Keys == h.blocks.Keys + {id}
    && (forall k :: k in h.blocks ==> h'.blocks[k] == h.blocks[k])
    && h'.blocks[id].refs == 1
    && !h'.blocks[id].freed
  }

  /** Every block of `h` is still in `h'`, unchanged. */
  predicate Extends(h: Heap, h': Heap)
  {
    forall k :: k in h.blocks ==> k in h'.blocks && h'.blocks[k] == h.blocks[k]
  }

  /**
   * Allocating a block for `size` units: one reference, the size recorded and
   * the terminator written at index `size`.
   */
  function Allocate(h: Heap, size: nat): (r: (BlockId, Heap))
    requires HeapOk(h)
    ensures HeapOk(r.1) && Fresh(h, r.1, r.0)
    ensures r.1.blocks[r.0].size == size
  {
    var id := h.next;
    (id, Heap(h.blocks[id := Block(1, size, Uninit(size) + [0], false)], h.next + 1))
  }

  /** 1 when the optional holder is `id`, else 0. */
  function Ind(o: Option<BlockId>, id: BlockId): nat
  {
    if o == Some(id) then 1 else 0
  }

  /** One block's change when a holder of it is dropped (`d`) and one taken (`t`). */
  predicate Shifted(k: Block, k': Block, d: nat, t: nat)
  {
    && k'.size == k.size
    && k'.arr == k.arr
    && k'.refs + d == k.refs + t
    && k'.freed == (k.freed || (d == 1 && t == 0 && k.refs == 1))
  }

  /**
   * `h'` is `h` after dropping the reference `drop` and taking the reference
   * `take`: no block appears or disappears, no payload changes, counts move by
   * exactly one per reference, and a block is freed exactly when its last
   * reference is dropped.
   */
  predicate RefsShifted(h: Heap, h': Heap, drop: Option<BlockId>, take: Option<BlockId>)
  {
    && h'.next == h.next
    && h'.blocks.Keys == h.blocks.Keys
    && forall id :: id in h.blocks ==> Shifted(h.blocks[id], h'.blocks[id], Ind(drop, id), Ind(take, id))
  }

  /** Every block of `h` is still in `h'` with the size it was allocated for. */
  predicate SizesKept(h: Heap, h': Heap)
  {
    forall id :: id in h.blocks ==> id in h'.blocks && h'.blocks[id].size == h.blocks[id].size
  }


  /** `refs.fetch_sub(1)`, freeing the block when the previous count was 1. */
  function DecRef(h: Heap, id: BlockId): (h': Heap)
    requires HeapOk(h) && Live(h, id)
    ensures HeapOk(h')
    ensures RefsShifted(h, h', Some(id), None)
    ensures h'.blocks[id].freed <==> h.blocks[id].refs == 1
  {
    var k := h.blocks[id];
    h.(blocks := h.blocks[id := k.(refs := k.refs - 1, freed := k.refs == 1)])
  }

  /** `refs++` on a live block. */
  function IncRef(h: Heap, id: BlockId): (h': Heap)
    requires HeapOk(h) && Live(h, id)
    ensures HeapOk(h') && Live(h', id)
    ensures RefsShifted(h, h', None, Some(id))
  {
    var k := h.blocks[id];
    h.(blocks := h.blocks[id := k.(refs := k.refs + 1)])
  }

  /** Taking a reference and dropping it again leaves the heap as it was. */
  lemma IncThenDec(h: Heap, id: BlockId)
    requires HeapOk(h) && Live(h, id)
    ensures DecRef(IncRef(h, id), id) == h
  {
    var h' := DecRef(IncRef(h, id), id);
    assert h'.blocks[id] == h.blocks[id];
    assert h'.blocks == h.blocks;
  }

  /** A drop followed by a take composes into one shift, unless it frees the block retaken. */
  lemma ShiftCompose(h: Heap, h1: Heap, h2: Heap, drop: Option<BlockId>, take: Option<BlockId>)
    requires RefsShifted(h, h1, drop, None) && RefsShifted(h1, h2, None, take)
    requires take.Some? && take == drop && take.value in h.blocks ==> h.blocks[take.value].refs >= 2
    ensures RefsShifted(h, h2, drop, take)
  {
    forall id | id in h.blocks
      ensures Shifted(h.blocks[id], h2.blocks[id], Ind(drop, id), Ind(take, id))
    {
      var k, k1, k2 := h.blocks[id], h1.blocks[id], h2.blocks[id];
      assert Shifted(k, k1, Ind(drop, id), 0);
      assert Shifted(k1, k2, 0, Ind(take, id));
    }
  }

  // ---------------------------------------------------------------------------
  // Counting holders. A sequence of optional block ids stands for the live
  // buffers: `Some(id)` for a buffer in dynamic mode on block `id`.

  /** The number of holders of block `id`. */
  function Count(hs: seq<Option<BlockId>>, id: BlockId): nat
  {
    if |hs| == 0 then 0 else Ind(hs[0], id) + Count(hs[1..], id)
  }

  /**
   * The ownership invariant: every holder points at a live block, and the
   * reference count of every live block equals its number of holders.
   */
  predicate RefsMatch(h: Heap, hs: seq<Option<BlockId>>)
  {
    && (forall i :: 0 <= i < |hs| && hs[i].Some? ==> Live(h, hs[i].value))
    && (forall id :: id in h.blocks && !h.blocks[id].freed ==> h.blocks[id].refs == Count(hs, id))
  }

  lemma {:induction false} CountAppend(hs: seq<Option<BlockId>>, x: Option<BlockId>, id: BlockId)
    ensures Count(hs + [x], id) == Count(hs, id) + Ind(x, id)
  {
    if |hs| == 0 {
      assert hs + [x] == [x];
      assert [x][1..] == [];
    } else {
      assert (hs + [x])[1..] == hs[1..] + [x];
      CountAppend(hs[1..], x, id);
    }
  }

  lemma {:induction false} CountUpdate(hs: seq<Option<BlockId>>, i: nat, x: Option<BlockId>, id: BlockId)
    requires i < |hs|
    ensures Count(hs[i := x], id) + Ind(hs[i], id) == Count(hs, id) + Ind(x, id)
  {
    if i == 0 {
      assert hs[i := x][1..] == hs[1..];
    } else {
      assert hs[i := x][1..] == hs[1..][i - 1 := x];
      CountUpdate(hs[1..], i - 1, x, id);
    }
  }

  /** The sequence with its `i`-th element removed. */
  function Remove<T>(s: seq<T>, i: nat): (r: seq<T>)
    requires i < |s|
    ensures |r| == |s| - 1
    ensures forall k :: 0 <= k < i ==> r[k] == s[k]
    ensures forall k :: i <= k < |r| ==> r[k] == s[k + 1]
  {
    s[..i] + s[i + 1..]
  }

  /** The block each object of `live` holds a reference to, in order. */
  function HoldersOf<T>(live: seq<T>, holder: T -> Option<BlockId>): (hs: seq<Option<BlockId>>)
    ensures |hs| == |live|
    ensures forall i :: 0 <= i < |live| ==> hs[i] == holder(live[i])
  {
    seq(|live|, i requires 0 <= i < |live| => holder(live[i]))
  }

  /** Removing an object removes its entry from the holders. */
  lemma HoldersRemove<T>(live: seq<T>, i: nat, holder: T -> Option<BlockId>)
    requires i < |live|
    ensures HoldersOf(Remove(live, i), holder) == Remove(HoldersOf(live, holder), i)
  {
  }

  lemma {:induction false} CountRemove(hs: seq<Option<BlockId>>, i: nat, id: BlockId)
    requires i < |hs|
    ensures Count(Remove(hs, i), id) + Ind(hs[i], id) == Count(hs, id)
  {
    if i == 0 {
      assert Remove(hs, 0) == hs[1..];
    } else {
      assert Remove(hs, i)[1..] == Remove(hs[1..], i - 1);
      CountRemove(hs[1..], i - 1, id);
    }
  }

  lemma {:induction false} CountPositive(hs: seq<Option<BlockId>>, i: nat, id: BlockId)
    requires i < |hs| && hs[i] == Some(id)
    ensures Count(hs, id) >= 1
  {
    CountRemove(hs, i, id);
  }

  /** Two distinct holders of one block account for at least two references. */
  lemma {:induction false} CountTwo(hs: seq<Option<BlockId>>, i: nat, j: nat, id: BlockId)
    requires i < |hs| && j < |hs| && i != j
    requires hs[i] == Some(id) && hs[j] == Some(id)
    ensures Count(hs, id) >= 2
  {
    CountRemove(hs, i, id);
    var j' := if j < i then j else j - 1;
    assert Remove(hs, i)[j'] == Some(id);
    CountPositive(Remove(hs, i), j', id);
  }

  lemma {:induction false} CountAbsent(hs: seq<Option<BlockId>>, id: BlockId)
    requires forall k :: 0 <= k < |hs| ==> hs[k] != Some(id)
    ensures Count(hs, id) == 0
  {
    if |hs| > 0 {
      assert forall k :: 0 <= k < |hs| - 1 ==> hs[1..][k] == hs[k + 1];
      CountAbsent(hs[1..], id);
    }
  }

  lemma {:induction false} CountAll(hs: seq<Option<BlockId>>, id: BlockId)
    requires forall k :: 0 <= k < |hs| ==> hs[k] == Some(id)
    ensures Count(hs, id) == |hs|
  {
    if |hs| > 0 {
      assert forall k :: 0 <= k < |hs| - 1 ==> hs[1..][k] == hs[k + 1];
      CountAll(hs[1..], id);
    }
  }

  /** Under the invariant, a block with no holders is freed (or was never allocated). */
  lemma UnheldIsFreed(h: Heap, hs: seq<Option<BlockId>>, id: BlockId)
    requires HeapOk(h) && RefsMatch(h, hs) && id in h.blocks
    requires forall k :: 0 <= k < |hs| ==> hs[k] != Some(id)
    ensures h.blocks[id].freed
  {
    CountAbsent(hs, id);
  }

  // ---------------------------------------------------------------------------
  // How the invariant survives each kind of transition.

  /** Holder `i` is replaced by `x` while the heap drops `hs[i]` and takes `x`. */
  lemma ReplaceKeepsRefs(h: Heap, h': Heap, hs: seq<Option<BlockId>>, i: nat, x: Option<BlockId>)
    requires HeapOk(h) && RefsMatch(h, hs) && i < |hs|
    requires x.Some? ==> Live(h, x.value)
    requires RefsShifted(h, h', hs[i], x)
    ensures RefsMatch(h', hs[i := x])
  {
    var hs' := hs[i := x];
    forall k | 0 <= k < |hs'| && hs'[k].Some?
      ensures Live(h', hs'[k].value)
    {
      var id := hs'[k].value;
      assert Shifted(h.blocks[id], h'.blocks[id], Ind(hs[i], id), Ind(x, id));
      if k != i && hs[i] == Some(id) && x != Some(id) {
        CountTwo(hs, i, k, id);
      }
    }
    forall id | id in h'.blocks && !h'.blocks[id].freed
      ensures h'.blocks[id].refs == Count(hs', id)
    {
      CountUpdate(hs, i, x, id);
    }
  }

  /** Holder `i` disappears while the heap drops `hs[i]`. */
  lemma RemoveKeepsRefs(h: Heap, h': Heap, hs: seq<Option<BlockId>>, i: nat)
    requires HeapOk(h) && RefsMatch(h, hs) && i < |hs|
    requires RefsShifted(h, h', hs[i], None)
    ensures RefsMatch(h', Remove(hs, i))
  {
    var hs' := Remove(hs, i);
    forall k | 0 <= k < |hs'| && hs'[k].Some?
      ensures Live(h', hs'[k].value)
    {
      var id := hs'[k].value;
      var k0 := if k < i then k else k + 1;
      assert hs[k0] == Some(id);
      assert Shifted(h.blocks[id], h'.blocks[id], Ind(hs[i], id), 0);
      if hs[i] == Some(id) {
        CountTwo(hs, i, k0, id);
      }
    }
    forall id | id in h'.blocks && !h'.blocks[id].freed
      ensures h'.blocks[id].refs == Count(hs', id)
    {
      CountRemove(hs, i, id);
    }
  }

  /** A new holder `x` appears while the heap takes `x`, or allocates it afresh. */
  lemma AppendKeepsRefs(h: Heap, h': Heap, hs: seq<Option<BlockId>>, x: Option<BlockId>)
    requires HeapOk(h) && RefsMatch(h, hs)
    requires (x.Some? && Live(h, x.value) && RefsShifted(h, h', None, x))
          || (x.None? && h' == h)
          || (x.Some? && Fresh(h, h', x.value))
    ensures RefsMatch(h', hs + [x])
  {
    var hs' := hs + [x];
    var isNew := x.Some? && Fresh(h, h', x.value);
    if isNew {
      CountAbsent(hs, x.value);
    }
    forall k | 0 <= k < |hs'| && hs'[k].Some?
      ensures Live(h', hs'[k].value)
    {
      if k < |hs| {
        var id := hs[k].value;
        assert Live(h, id);
        if !isNew && h' != h {
          assert Shifted(h.blocks[id], h'.blocks[id], 0, Ind(x, id));
        }
      }
    }
    forall id | id in h'.blocks && !h'.blocks[id].freed
      ensures h'.blocks[id].refs == Count(hs', id)
    {
      CountAppend(hs, x, id);
      if isNew && id != x.value {
        assert h'.blocks[id] == h.blocks[id];
      }
    }
  }

  /**
   * Holder `i` takes holder `j`'s block and `j` becomes empty while the heap
   * drops `hs[i]`: the steal of a move.
   */
  lemma MoveKeepsRefs(h: Heap, h': Heap, hs: seq<Option<BlockId>>, i: nat, j: nat)
    requires HeapOk(h) && RefsMatch(h, hs) && i < |hs| && j < |hs| && i != j
    requires RefsShifted(h, h', hs[i], None)
    ensures RefsMatch(h', hs[i := hs[j]][j := None])
  {
    var hs1 := hs[i := hs[j]];
    var hs' := hs1[j := None];
    forall k | 0 <= k < |hs'| && hs'[k].Some?
      ensures Live(h', hs'[k].value)
    {
      var id := hs'[k].value;
      var k0 := if k == i then j else k;
      assert hs[k0] == Some(id) && k0 != i;
      assert Shifted(h.blocks[id], h'.blocks[id], Ind(hs[i], id), 0);
      if hs[i] == Some(id) {
        CountTwo(hs, i, k0, id);
      }
    }
    forall id | id in h'.blocks && !h'.blocks[id].freed
      ensures h'.blocks[id].refs == Count(hs', id)
    {
      CountUpdate(hs, i, hs[j], id);
      CountUpdate(hs1, j, None, id);
    }
  }
}

=== FILE: buffer_ownership.dfy ===
/**
 * Ownership of dynamic blocks across all live `code_unit_buffer` objects. A
 * world is the heap plus the sequence of live buffers; `Ok` says that every
 * dynamic buffer points at a live block and that every live block's reference
 * count equals the number of buffers pointing at it. Construction, copy,
 * move, assignment and destruction all keep `Ok`, never change what another
 * buffer reads, and never touch a freed block again.
 */
module BufferOwnership {
  import opened Wrappers
  import opened BlockHeap
  import opened CodeUnitBuffer

  datatype World = World(heap: Heap, live: seq<Buffer>)

  /** The block each live object holds a reference to. */
  function Holders(live: seq<Buffer>): seq<Option<BlockId>>
  {
    HoldersOf(live, Holder)
  }

  predicate Ok(w: World)
  {
    && HeapOk(w.heap)
    && (forall i :: 0 <= i < |w.live| ==> Shaped(w.live[i]))
    && RefsMatch(w.heap, Holders(w.live))
  }

  lemma OkValid(w: World, i: nat)
    requires Ok(w) && i < |w.live|
    ensures Valid(w.live[i], w.heap)
  {
    if w.live[i].Dynamic? {
      assert Holders(w.live)[i] == Some(w.live[i].block);
    }
  }

  /** Freed blocks stay freed and are never modified again. */
  predicate FreedStay(h: Heap, h': Heap)
  {
    forall id :: id in h.blocks && h.blocks[id].freed ==> id in h'.blocks && h'.blocks[id] == h.blocks[id]
  }

  /** Buffer `k` of `w` reads the same units in `w'`. */
  predicate SameContents(w: World, w': World, k: nat, k': nat)
    requires Ok(w) && Ok(w') && k < |w.live| && k' < |w'.live|
  {
    OkValid(w, k);
    OkValid(w', k');
    Contents(w'.live[k'], w'.heap) == Contents(w.live[k], w.heap)
  }

  /** In a world that is `Ok`, two different slots are distinct objects. */
  lemma SlotsDistinct(w: World, i: nat, j: nat)
    requires Ok(w) && i < |w.live| && j < |w.live| && i != j
    ensures Valid(w.live[i], w.heap) && Valid(w.live[j], w.heap)
    ensures Distinct(w.live[i], w.live[j], w.heap)
  {
    OkValid(w, i);
    OkValid(w, j);
    var a, b := w.live[i], w.live[j];
    if a.Dynamic? && b.Dynamic? && a.block == b.block {
      CountTwo(Holders(w.live), i, j, a.block);
    }
  }

  /** A shift of references keeps every untouched buffer's contents. */
  lemma OthersKeep(w: World, w': World, drop: Option<BlockId>, take: Option<BlockId>, k: nat, k': nat)
    requires Ok(w) && Ok(w') && k < |w.live| && k' < |w'.live| && w'.live[k'] == w.live[k]
    requires RefsShifted(w.heap, w'.heap, drop, take)
    ensures SameContents(w, w', k, k')
  {
    OkValid(w, k);
    OkValid(w', k');
    ShiftKeepsContents(w.live[k], w.heap, w'.heap, drop, take);
  }

  lemma ShiftFreedStay(h: Heap, h': Heap, hs: seq<Option<BlockId>>, drop: Option<BlockId>, take: Option<BlockId>)
    requires HeapOk(h) && RefsMatch(h, hs) && RefsShifted(h, h', drop, take)
    requires drop.Some? ==> Live(h, drop.value)
    requires take.Some? ==> Live(h, take.value)
    ensures FreedStay(h, h')
  {
    forall id | id in h.blocks && h.blocks[id].freed
      ensures h'.blocks[id] == h.blocks[id]
    {
      assert Shifted(h.blocks[id], h'.blocks[id], Ind(drop, id), Ind(take, id));
    }
  }

  // ---------------------------------------------------------------------------
  // Transitions

  /** A buffer built by the range constructor joins the world. */
  method Construct(w: World, units: seq<Unit>) returns (w': World)
    requires Ok(w)
    ensures Ok(w') && |w'.live| == |w.live| + 1
    ensures w'.live[..|w.live|] == w.live && Extends(w.heap, w'.heap)
    ensures Valid(w'.live[|w.live|], w'.heap) && Contents(w'.live[|w.live|], w'.heap) == units
    ensures w'.live[|w.live|].Dynamic? <==> |units| >= SmallSize
    ensures w'.live[|w.live|].Dynamic? ==> Fresh(w.heap, w'.heap, w'.live[|w.live|].block)
    ensures SizesKept(w.heap, w'.heap)
  {
    var r := RangeConstruct(units, w.heap);
    w' := World(r.heap, w.live + [r.buffer]);
    assert Holders(w'.live) == Holders(w.live) + [Holder(r.buffer)];
    AppendKeepsRefs(w.heap, r.heap, Holders(w.live), Holder(r.buffer));
    assert w'.live[..|w.live|] == w.live;
  }

  /** A literal joins the world; the heap is untouched. */
  method AddLiteral(w: World, ptr: seq<Unit>, len: nat) returns (w': World)
    requires Ok(w) && len <= |ptr|
    ensures Ok(w') && w'.heap == w.heap && |w'.live| == |w.live| + 1 && w'.live[..|w.live|] == w.live
    ensures Contents(w'.live[|w.live|], w'.heap) == ptr[..len]
    ensures SizesKept(w.heap, w'.heap)
  {
    var b := FromStringLiteral(ptr, len);
    w' := World(w.heap, w.live + [b]);
    assert Holders(w'.live) == Holders(w.live) + [None];
    AppendKeepsRefs(w.heap, w.heap, Holders(w.live), None);
    assert w'.live[..|w.live|] == w.live;
  }

  /** Copy construction from slot `j`: a new buffer equal to it joins the world. */
  method CopyNew(w: World, j: nat) returns (w': World)
    requires Ok(w) && j < |w.live|
    ensures Ok(w') && w'.live == w.live + [w.live[j]]
    ensures SameContents(w, w', j, |w.live|)
    ensures forall k :: 0 <= k < |w.live| ==> SameContents(w, w', k, k)
    ensures FreedStay(w.heap, w'.heap)
    ensures w'.heap.blocks.Keys == w.heap.blocks.Keys
    ensures SizesKept(w.heap, w'.heap)
  {
    OkValid(w, j);
    var r := CopyConstruct(w.live[j], w.heap);
    w' := World(r.heap, w.live + [r.buffer]);
    assert Holders(w'.live) == Holders(w.live) + [Holder(w.live[j])];
    AppendKeepsRefs(w.heap, r.heap, Holders(w.live), Holder(w.live[j]));
    ShiftFreedStay(w.heap, r.heap, Holders(w.live), None, Holder(w.live[j]));
    forall k | 0 <= k < |w.live| ensures SameContents(w, w', k, k) {
      OthersKeep(w, w', None, Holder(w.live[j]), k, k);
    }
  }

  /** Copy assignment `live[i] = live[j]` for two distinct slots. */
  method Assign(w: World, i: nat, j: nat) returns (w': World)
    requires Ok(w) && i < |w.live| && j < |w.live| && i != j
    ensures Ok(w') && w'.live == w.live[i := w.live[j]]
    ensures SameContents(w, w', j, i)
    ensures forall k :: 0 <= k < |w.live| && k != i ==> SameContents(w, w', k, k)
    ensures FreedStay(w.heap, w'.heap)
    ensures SizesKept(w.heap, w'.heap)
  {
    SlotsDistinct(w, i, j);
    var r := CopyAssign(w.live[i], w.live[j], w.heap);
    w' := World(r.heap, w.live[i := r.buffer]);
    assert Holders(w'.live) == Holders(w.live)[i := Holder(w.live[j])];
    ReplaceKeepsRefs(w.heap, r.heap, Holders(w.live), i, Holder(w.live[j]));
    ShiftFreedStay(w.heap, r.heap, Holders(w.live), Holder(w.live[i]), Holder(w.live[j]));
    forall k | 0 <= k < |w.live| && k != i ensures SameContents(w, w', k, k) {
      OthersKeep(w, w', Holder(w.live[i]), Holder(w.live[j]), k, k);
    }
  }

  /** Move construction from slot `j`: the new buffer takes `j`'s value, `j` may be emptied. */
  method MoveNew(w: World, j: nat) returns (w': World)
    requires Ok(w) && j < |w.live|
    ensures Ok(w') && |w'.live| == |w.live| + 1 && w'.heap == w.heap
    ensures w'.live[|w.live|] == w.live[j]
    ensures SameContents(w, w', j, |w.live|)
    ensures forall k :: 0 <= k < |w.live| && k != j ==> w'.live[k] == w.live[k]
    ensures SizesKept(w.heap, w'.heap)
  {
    OkValid(w, j);
    var m := MoveConstruct(w.live[j], w.heap);
    w' := World(w.heap, w.live[j := m.src] + [m.dst]);
    var hs := Holders(w.live);
    if w.live[j].Dynamic? {
      AppendKeepsRefs(w.heap, w.heap, hs, None);
      var hs1 := hs + [None];
      assert RefsShifted(w.heap, w.heap, hs1[|hs|], None) by {
        forall id | id in w.heap.blocks
          ensures Shifted(w.heap.blocks[id], w.heap.blocks[id], 0, 0) {}
      }
      MoveKeepsRefs(w.heap, w.heap, hs1, |hs|, j);
      assert Holders(w'.live) == hs1[|hs| := hs1[j]][j := None];
    } else {
      AppendKeepsRefs(w.heap, w.heap, hs, None);
      assert Holders(w'.live) == hs + [None];
    }
  }

  /** Move assignment `live[i] = std::move(live[j])` for two distinct slots. */
  method MoveInto(w: World, i: nat, j: nat) returns (w': World)
    requires Ok(w) && i < |w.live| && j < |w.live| && i != j
    ensures Ok(w') && |w'.live| == |w.live|
    ensures w'.live[i] == w.live[j]
    ensures SameContents(w, w', j, i)
    ensures forall k :: 0 <= k < |w.live| && k != i && k != j ==> SameContents(w, w', k, k)
    ensures FreedStay(w.heap, w'.heap)
    ensures SizesKept(w.heap, w'.heap)
  {
    SlotsDistinct(w, i, j);
    var m := MoveAssign(w.live[i], w.live[j], w.heap);
    w' := World(m.heap, w.live[i := m.dst][j := m.src]);
    var hs := Holders(w.live);
    MoveKeepsRefs(w.heap, m.heap, hs, i, j);
    if w.live[j].Dynamic? {
      assert Holders(w'.live) == hs[i := hs[j]][j := None];
    } else {
      assert Holders(w'.live) == hs[i := hs[j]][j := None];
    }
    ShiftFreedStay(w.heap, m.heap, hs, Holder(w.live[i]), None);
    forall k | 0 <= k < |w.live| && k != i && k != j ensures SameContents(w, w', k, k) {
      OthersKeep(w, w', Holder(w.live[i]), None, k, k);
    }
  }

  /** The slot buffer `k` came from once slot `i` was removed. */
  function Origin(i: nat, k: nat): nat
  {
    if k < i then k else k + 1
  }

  /** Destruction of slot `i`: it leaves the world and releases its reference. */
  method Destroy(w: World, i: nat) returns (w': World)
    requires Ok(w) && i < |w.live|
    ensures Ok(w') && w'.live == Remove(w.live, i)
    ensures forall k :: 0 <= k < |w'.live| ==> SameContents(w, w', Origin(i, k), k)
    ensures FreedStay(w.heap, w'.heap) && w'.heap.blocks.Keys == w.heap.blocks.Keys
    ensures w.live[i].Dynamic? ==> w.live[i].block in w.heap.blocks
    ensures w.live[i].Dynamic? ==>
              (w'.heap.blocks[w.live[i].block].freed <==> w.heap.blocks[w.live[i].block].refs == 1)
    ensures SizesKept(w.heap, w'.heap)
  {
    OkValid(w, i);
    var h' := CodeUnitBuffer.Destroy(w.live[i], w.heap);
    w' := World(h', Remove(w.live, i));
    HoldersRemove(w.live, i, Holder);
    var hs := Holders(w.live);
    RemoveKeepsRefs(w.heap, h', hs, i);
    ShiftFreedStay(w.heap, h', hs, Holder(w.live[i]), None);
    forall k | 0 <= k < |w'.live| ensures SameContents(w, w', Origin(i, k), k) {
      OthersKeep(w, w', Holder(w.live[i]), None, Origin(i, k), k);
    }
    if w.live[i].Dynamic? {
      var id := w.live[i].block;
      assert Shifted(w.heap.blocks[id], h'.blocks[id], 1, 0);
    }
  }

  // ---------------------------------------------------------------------------
  // Consequences of the invariant

  /**
   * A block referenced by a live buffer is live, and its count is the number
   * of live buffers holding it, so at least one.
   */
  lemma ReferencedIsCounted(w: World, i: nat)
    requires Ok(w) && i < |w.live| && w.live[i].Dynamic?
    ensures Live(w.heap, w.live[i].block)
    ensures w.heap.blocks[w.live[i].block].refs == Count(Holders(w.live), w.live[i].block)
    ensures w.heap.blocks[w.live[i].block].refs >= 1
  {
    OkValid(w, i);
  }

  /** Once every buffer is destroyed, every block ever allocated has been freed. */
  lemma AllDestroyedAllFreed(w: World, id: BlockId)
    requires Ok(w) && |w.live| == 0 && id in w.heap.blocks
    ensures w.heap.blocks[id].freed
  {
    UnheldIsFreed(w.heap, Holders(w.live), id);
  }

  /** The empty world: nothing allocated, nothing live. */
  function Start(): (w: World)
    ensures Ok(w) && |w.live| == 0
  {
    World(EmptyHeap(), [])
  }

  /**
   * One large string built and then copied `copies` times: exactly one block
   * is ever allocated, every live buffer points at it, and its count is the
   * number of buffers, `copies + 1`.
   */
  method CopyMany(units: seq<Unit>, copies: nat) returns (w: World, id: BlockId)
    requires |units| >= SmallSize
    ensures Ok(w) && |w.live| == copies + 1
    ensures w.heap.blocks.Keys == {id}
    ensures forall k :: 0 <= k < |w.live| ==> w.live[k] == Dynamic(id)
    ensures Live(w.heap, id) && w.heap.blocks[id].refs == copies + 1
    ensures w.heap.blocks[id].size == |units|
    ensures forall k :: 0 <= k < |w.live| ==> Contents(w.live[k], w.heap) == units
  {
    w := Construct(Start(), units);
    id := w.live[0].block;
    CountAll(Holders(w.live), id);
    var i := 0;
    while i < copies
      invariant i <= copies && Ok(w) && |w.live| == i + 1
      invariant w.heap.blocks.Keys == {id}
      invariant forall k :: 0 <= k < |w.live| ==> w.live[k] == Dynamic(id)
      invariant Live(w.heap, id) && w.heap.blocks[id].refs == i + 1
      invariant Contents(w.live[0], w.heap) == units && w.heap.blocks[id].size == |units|
    {
      w := CopyNew(w, 0);
      CountAll(Holders(w.live), id);
      OkValid(w, 0);
      i := i + 1;
    }
  }

  /**
   * The copies of `CopyMany` all destroyed: the count falls with each
   * destruction, and the one block is freed when the last buffer goes, still
   * recording the size it was allocated for.
   */
  method CopyThenDestroyAll(units: seq<Unit>, copies: nat) returns (w: World, id: BlockId)
    requires |units| >= SmallSize
    ensures Ok(w) && |w.live| == 0
    ensures w.heap.blocks.Keys == {id} && w.heap.blocks[id].freed
    ensures w.heap.blocks[id].size == |units|
  {
    w, id := CopyMany(units, copies);
    while |w.live| > 0
      invariant Ok(w) && w.heap.blocks.Keys == {id} && w.heap.blocks[id].size == |units|
      invariant forall k :: 0 <= k < |w.live| ==> w.live[k] == Dynamic(id)
      invariant |w.live| > 0 ==> Live(w.heap, id) && w.heap.blocks[id].refs == |w.live|
      invariant |w.live| == 0 ==> w.heap.blocks[id].freed
      decreases |w.live|
    {
      OkValid(w, 0);
      w := Destroy(w, 0);
      CountAll(Holders(w.live), id);
    }
  }
}

=== FILE: code_unit_buffer.dfy ===
/**
 * `neo::code_unit_buffer<T>`: an immutable sequence of code units held in one
 * of three modes.
 *   - literal: a borrowed pointer and a length; nothing is copied or owned;
 *   - small:   an inline array of `SmallSize` units, one slot kept for the terminator;
 *   - dynamic: a pointer to a reference-counted heap block (see BlockHeap).
 * Buffers are values over an explicit heap; every operation that can touch the
 * heap takes it and returns the new one.
 */
module CodeUnitBuffer {
  import opened Wrappers
  import opened BlockHeap

  /** `small_size`: the capacity of the inline array, terminator slot included. */
  const SmallSize: nat := 32

  datatype Buffer =
    | Literal(pointer: seq<Unit>, size: nat)
    | Small(arr: seq<Unit>, size: nat)
    | Dynamic(block: BlockId)

  /** A buffer together with the heap it lives over. */
  datatype Built = Built(buffer: Buffer, heap: Heap)

  /** The destination and the source of a move, and the heap afterwards. */
  datatype Moved = Moved(dst: Buffer, src: Buffer, heap: Heap)

  /**
   * The heap-independent part of validity: a literal points at no fewer units
   * than it records; a small buffer fills fewer than `SmallSize` slots and
   * terminates them.
   */
  predicate Shaped(b: Buffer)
  {
    match b
    case Literal(p, n) => n <= |p|
    case Small(arr, n) => |arr| == SmallSize && n < SmallSize && arr[n] == 0
    case Dynamic(_) => true
  }

  /** A dynamic buffer points at a live block. */
  predicate Valid(b: Buffer, h: Heap)
  {
    HeapOk(h) && Shaped(b) && (b.Dynamic? ==> Live(h, b.block))
  }

  /** The block the buffer holds a reference to, if any. */
  function Holder(b: Buffer): Option<BlockId>
  {
    if b.Dynamic? then Some(b.block) else None
  }

  /**
   * `data()`: the memory visible through the pointer of the active mode: the
   * inline array in small mode, the block's trailing array (terminator slot
   * included) in dynamic mode, the borrowed memory in literal mode.
   */
  function Data(b: Buffer, h: Heap): (d: seq<Unit>)
    requires Valid(b, h)
    ensures b.Small? ==> d == b.arr && |d| == SmallSize
    ensures b.Dynamic? ==> d == h.blocks[b.block].arr && |d| == h.blocks[b.block].size + 1
    ensures b.Literal? ==> d == b.pointer
  {
    match b
    case Literal(p, _) => p
    case Small(arr, _) => arr
    case Dynamic(id) => h.blocks[id].arr
  }

  /**
   * `code_unit_size()`: the size recorded by the active mode. It never runs
   * past `data()`, and the owning modes keep a terminator right after it.
   */
  function CodeUnitSize(b: Buffer, h: Heap): (n: nat)
    requires Valid(b, h)
    ensures n <= |Data(b, h)|
    ensures !b.Literal? ==> n < |Data(b, h)| && Data(b, h)[n] == 0
  {
    match b
    case Literal(_, n) => n
    case Small(_, n) => n
    case Dynamic(id) => h.blocks[id].size
  }

  /** `byte_size()` for code units of `width` bytes: the logical contents' length in bytes. */
  function ByteSize(b: Buffer, h: Heap, width: nat): (n: nat)
    requires Valid(b, h)
    ensures n == |Contents(b, h)| * width
  {
    CodeUnitSize(b, h) * width
  }

  /** The logical value: the first `code_unit_size()` units at `data()`. */
  function Contents(b: Buffer, h: Heap): (s: seq<Unit>)
    requires Valid(b, h)
    ensures |s| == CodeUnitSize(b, h)
  {
    Data(b, h)[..CodeUnitSize(b, h)]
  }

  /** The value an owning buffer is left in: small mode, size 0, terminator at 0. */
  function Empty(): (b: Buffer)
    ensures b.Small? && Shaped(b) && b.size == 0
  {
    Small(Uninit(SmallSize), 0)
  }

  /** The default constructor yields an empty, terminated small buffer and allocates nothing. */
  lemma DefaultIsEmpty(h: Heap)
    requires HeapOk(h)
    ensures Valid(Empty(), h) && Holder(Empty()) == None
    ensures CodeUnitSize(Empty(), h) == 0 && Data(Empty(), h)[0] == 0
    ensures Contents(Empty(), h) == []
  {
  }

  // ---------------------------------------------------------------------------
  // Construction

  /**
   * `_prepare_storage(n)`: small mode when `n < SmallSize`, otherwise a fresh
   * block with one reference. Either way the size is recorded and a terminator
   * written at index `n`; the first `n` slots are left for the caller to fill.
   */
  function PrepareStorage(n: nat, h: Heap): (r: Built)
    requires HeapOk(h)
    ensures Valid(r.buffer, r.heap)
    ensures r.buffer.Small? <==> n < SmallSize
    ensures r.buffer.Dynamic? <==> n >= SmallSize
    ensures CodeUnitSize(r.buffer, r.heap) == n
    ensures Data(r.buffer, r.heap)[..n] == Uninit(n)
    ensures r.buffer.Small? ==> r.heap == h
    ensures r.buffer.Dynamic? ==> Fresh(h, r.heap, r.buffer.block)
  {
    if n < SmallSize then
      Built(Small(Uninit(SmallSize)[n := 0], n), h)
    else
      var (id, h') := Allocate(h, n);
      Built(Dynamic(id), h')
  }

  /** Only the block `id` changed, and only in its payload. */
  predicate Rewritten(h: Heap, h': Heap, id: BlockId)
    requires id in h.blocks
  {
    && h'.next == h.next
    && h'.blocks.Keys == h.blocks.Keys
    && (forall k :: k in h.blocks && k != id ==> h'.blocks[k] == h.blocks[k])
    && h'.blocks[id].refs == h.blocks[id].refs
    && h'.blocks[id].size == h.blocks[id].size
    && h'.blocks[id].freed == h.blocks[id].freed
  }

  /** Writing `units` through the pointer `_prepare_storage` returned. */
  function Overwrite(b: Buffer, h: Heap, units: seq<Unit>): (r: Built)
    requires Valid(b, h) && !b.Literal? && |units| == CodeUnitSize(b, h)
    ensures Valid(r.buffer, r.heap)
    ensures r.buffer.Small? == b.Small? && (b.Dynamic? ==> r.buffer == b)
    ensures Contents(r.buffer, r.heap) == units
    ensures b.Small? ==> r.heap == h
    ensures b.Dynamic? ==> Rewritten(h, r.heap, b.block)
  {
    match b
    case Small(arr, n) => Built(Small(units + arr[n..], n), h)
    case Dynamic(id) =>
      var k := h.blocks[id];
      Built(b, h.(blocks := h.blocks[id := k.(arr := units + k.arr[|units|..])]))
  }

  /**
   * The range constructor's result: the storage `_prepare_storage` picks, with
   * the input units copied in order.
   */
  function RangeConstruct(units: seq<Unit>, h: Heap): (r: Built)
    requires HeapOk(h)
    ensures Valid(r.buffer, r.heap)
    ensures r.buffer.Small? <==> |units| < SmallSize
    ensures r.buffer.Dynamic? <==> |units| >= SmallSize
    ensures Contents(r.buffer, r.heap) == units
    ensures Data(r.buffer, r.heap)[|units|] == 0
    ensures r.buffer.Small? ==> r.heap == h
    ensures r.buffer.Dynamic? ==> Fresh(h, r.heap, r.buffer.block)
    ensures r.buffer.Dynamic? ==> r.buffer == PrepareStorage(|units|, h).buffer
    ensures SizesKept(PrepareStorage(|units|, h).heap, r.heap)
  {
    var p := PrepareStorage(|units|, h);
    Overwrite(p.buffer, p.heap, units)
  }

  /**
   * The copy loop of the range constructor: `*wr_ptr = *first` for each unit,
   * through a pointer into `storage`. The slots past the range keep their values.
   */
  method CopyUnits(storage: seq<Unit>, units: seq<Unit>) returns (s: seq<Unit>)
    requires |units| <= |storage|
    ensures s == units + storage[|units|..]
  {
    s := storage;
    var i := 0;
    while i < |units|
      invariant 0 <= i <= |units|
      invariant s == units[..i] + storage[i..]
    {
      s := s[i := units[i]];
      assert units[..i + 1] == units[..i] + [units[i]];
      i := i + 1;
    }
    assert units[..i] == units;
  }

  /**
   * The range constructor as the source runs it: prepare the storage, then
   * copy one unit at a time into it. It builds exactly `RangeConstruct`.
   */
  method FromRange(units: seq<Unit>, h: Heap) returns (b: Buffer, h': Heap)
    requires HeapOk(h)
    ensures Built(b, h') == RangeConstruct(units, h)
  {
    var p := PrepareStorage(|units|, h);
    var s := CopyUnits(Data(p.buffer, p.heap), units);
    match p.buffer
    case Small(_, n) =>
      b, h' := Small(s, n), p.heap;
    case Dynamic(id) =>
      var k := p.heap.blocks[id];
      b, h' := p.buffer, p.heap.(blocks := p.heap.blocks[id := k.(arr := s)]);
  }

  /** `std::char_traits<T>::length`: the index of the first terminator. */
  function CStrLen(p: seq<Unit>): (n: nat)
    requires 0 in p
    ensures n < |p| && p[n] == 0
    ensures forall k :: 0 <= k < n ==> p[k] != 0
  {
    if p[0] == 0 then 0 else 1 + CStrLen(p[1..])
  }

  /**
   * The pointer constructor: the range from `ptr` to its first terminator,
   * copied. The result holds no terminator before its end and one right after.
   */
  function FromCString(ptr: seq<Unit>, h: Heap): (r: Built)
    requires HeapOk(h) && 0 in ptr
    ensures Valid(r.buffer, r.heap) && !r.buffer.Literal?
    ensures Contents(r.buffer, r.heap) == ptr[..CStrLen(ptr)]
    ensures 0 !in Contents(r.buffer, r.heap)
    ensures Data(r.buffer, r.heap)[CodeUnitSize(r.buffer, r.heap)] == 0
  {
    RangeConstruct(ptr[..CStrLen(ptr)], h)
  }

  /**
   * `fill(len, fn)`: the same storage choice as the range constructor, then the
   * writer called once on the prepared slots; the buffer holds what it wrote.
   */
  function Fill(len: nat, writer: seq<Unit> -> seq<Unit>, h: Heap): (r: Built)
    requires HeapOk(h)
    requires |writer(Uninit(len))| == len
    ensures Valid(r.buffer, r.heap)
    ensures r.buffer.Small? <==> len < SmallSize
    ensures r.buffer.Dynamic? <==> len >= SmallSize
    ensures CodeUnitSize(r.buffer, r.heap) == len
    ensures Contents(r.buffer, r.heap) == writer(Uninit(len))
    ensures Data(r.buffer, r.heap)[len] == 0
    ensures r.buffer.Small? ==> r.heap == h
    ensures r.buffer.Dynamic? ==> Fresh(h, r.heap, r.buffer.block)
  {
    var p := PrepareStorage(len, h);
    Overwrite(p.buffer, p.heap, writer(Data(p.buffer, p.heap)[..len]))
  }

  /**
   * `from_string_literal(ptr, len)` and the private literal constructor:
   * literal mode over `ptr`, nothing copied, no heap involved.
   */
  function FromStringLiteral(ptr: seq<Unit>, len: nat): (b: Buffer)
    requires len <= |ptr|
    ensures Shaped(b) && b.Literal? && Holder(b) == None
  {
    Literal(ptr, len)
  }

  /** The array constructor: a literal over the array, its last element not counted. */
  function FromArray(arr: seq<Unit>): (b: Buffer)
    requires |arr| >= 1
    ensures Shaped(b) && b.Literal? && Holder(b) == None
  {
    FromStringLiteral(arr, |arr| - 1)
  }

  /**
   * A literal reads straight through the recorded pointer: `data()` is that
   * memory, uncopied, and `code_unit_size()` the recorded length.
   */
  lemma LiteralReadsThrough(ptr: seq<Unit>, len: nat, h: Heap)
    requires len <= |ptr| && HeapOk(h)
    ensures Valid(FromStringLiteral(ptr, len), h)
    ensures Data(FromStringLiteral(ptr, len), h) == ptr
    ensures CodeUnitSize(FromStringLiteral(ptr, len), h) == len
    ensures Contents(FromStringLiteral(ptr, len), h) == ptr[..len]
  {
  }

  /** Array construction records `N - 1` units: the string literal's terminator is not counted. */
  lemma ArrayDropsTerminator(arr: seq<Unit>, h: Heap)
    requires |arr| >= 1 && HeapOk(h)
    ensures Valid(FromArray(arr), h)
    ensures CodeUnitSize(FromArray(arr), h) == |arr| - 1
    ensures Data(FromArray(arr), h) == arr
  {
  }

  // ---------------------------------------------------------------------------
  // Copy, move, release

  /**
   * `this != other`: two distinct buffers on one block account for two
   * references, so releasing one cannot free the other's block.
   */
  predicate Distinct(dst: Buffer, src: Buffer, h: Heap)
    requires Valid(dst, h) && Valid(src, h)
  {
    dst.Dynamic? && src.Dynamic? && dst.block == src.block ==> h.blocks[dst.block].refs >= 2
  }

  /**
   * `_release_dynamic`: drop one reference, freeing the block when it was the
   * last, and leave the buffer empty in small mode.
   */
  function ReleaseDynamic(b: Buffer, h: Heap): (r: Built)
    requires Valid(b, h) && b.Dynamic?
    ensures Valid(r.buffer, r.heap) && r.buffer.Small? && CodeUnitSize(r.buffer, r.heap) == 0
    ensures RefsShifted(h, r.heap, Some(b.block), None)
    ensures r.heap.blocks[b.block].freed <==> h.blocks[b.block].refs == 1
  {
    Built(Empty(), DecRef(h, b.block))
  }

  /** The destructor: releases only in dynamic mode; other modes leave the heap alone. */
  function Destroy(b: Buffer, h: Heap): (h': Heap)
    requires Valid(b, h)
    ensures HeapOk(h')
    ensures RefsShifted(h, h', Holder(b), None)
    ensures !b.Dynamic? ==> h' == h
  {
    if b.Dynamic? then ReleaseDynamic(b, h).heap else h
  }

  /**
   * Copy assignment: release the destination's block, then share the source's
   * block with one more reference, or copy a literal or small source by value.
   * The destination ends up equal to the source, contents included.
   */
  function CopyAssign(dst: Buffer, src: Buffer, h: Heap): (r: Built)
    requires Valid(dst, h) && Valid(src, h) && Distinct(dst, src, h)
    ensures Valid(r.buffer, r.heap)
    ensures r.buffer == src
    ensures Contents(r.buffer, r.heap) == Contents(src, h)
    ensures RefsShifted(h, r.heap, Holder(dst), Holder(src))
  {
    var d := if dst.Dynamic? then ReleaseDynamic(dst, h) else Built(dst, h);
    if src.Dynamic? then
      ShiftCompose(h, d.heap, IncRef(d.heap, src.block), Holder(dst), Holder(src));
      Built(src, IncRef(d.heap, src.block))
    else
      Built(src, d.heap)
  }

  /**
   * The copy constructor, which assigns into a fresh object whose mode starts
   * as small, so nothing is released.
   */
  function CopyConstruct(src: Buffer, h: Heap): (r: Built)
    requires Valid(src, h)
    ensures Valid(r.buffer, r.heap) && r.buffer == src
    ensures Contents(r.buffer, r.heap) == Contents(src, h)
    ensures RefsShifted(h, r.heap, None, Holder(src))
  {
    CopyAssign(Empty(), src, h)
  }

  /**
   * The move constructor: a dynamic source hands its block over and is left
   * empty, with no reference counted; any other source is copied.
   */
  function MoveConstruct(src: Buffer, h: Heap): (r: Moved)
    requires Valid(src, h)
    ensures r.heap == h
    ensures r.dst == src && Valid(r.dst, r.heap) && Valid(r.src, r.heap)
    ensures Contents(r.dst, r.heap) == Contents(src, h)
    ensures src.Dynamic? ==> r.src == Empty()
    ensures !src.Dynamic? ==> r.src == src
  {
    if src.Dynamic? then
      Moved(src, Empty(), h)
    else
      var c := CopyAssign(Empty(), src, h);
      Moved(c.buffer, src, c.heap)
  }

  /**
   * Move assignment: release the destination's block, then steal a dynamic
   * source's block without touching its count, or copy any other source.
   */
  function MoveAssign(dst: Buffer, src: Buffer, h: Heap): (r: Moved)
    requires Valid(dst, h) && Valid(src, h) && Distinct(dst, src, h)
    ensures Valid(r.dst, r.heap) && Valid(r.src, r.heap)
    ensures r.dst == src
    ensures Contents(r.dst, r.heap) == Contents(src, h)
    ensures src.Dynamic? ==> r.src == Empty()
    ensures !src.Dynamic? ==> r.src == src
    ensures RefsShifted(h, r.heap, Holder(dst), None)
  {
    var d := if dst.Dynamic? then ReleaseDynamic(dst, h) else Built(dst, h);
    if src.Dynamic? then
      Moved(src, Empty(), d.heap)
    else
      var c := CopyAssign(d.buffer, src, d.heap);
      Moved(c.buffer, src, c.heap)
  }

  // ---------------------------------------------------------------------------
  // Allocation sizes

  /**
   * The byte count `_init_dynamic` allocates for `size` units of `width`
   * bytes: the header, whose one-element trailing array holds the terminator,
   * plus the units.
   */
  function AllocationBytes(size: nat, header: nat, width: nat): (n: nat)
    requires width >= 1
    ensures n >= header + size
  {
    header + size * width
  }

  /** The size hint `_release_dynamic` hands to `deallocate`, as written. */
  function ReleaseHintAsWritten(size: nat, header: nat, width: nat): nat
  {
    (size + width) + header
  }

  /**
   * For every block dynamic mode can hold and every code-unit width in use,
   * the hint differs from the allocated size, while `deallocate` requires the
   * very count `allocate` was given.
   */
  lemma ReleaseHintMismatch(size: nat, header: nat, width: nat)
    requires size >= SmallSize && width in {1, 2, 4}
    ensures ReleaseHintAsWritten(size, header, width) != AllocationBytes(size, header, width)
  {
    if width == 2 {
      assert size * width == size + size;
    } else if width == 4 {
      assert size * width == size + size + size + size;
    }
  }

  /** The hint as intended: computed, like the one as written, from the block being freed. */
  function ReleaseHint(k: Block, header: nat, width: nat): nat
    requires width >= 1
  {
    header + k.size * width
  }

  /**
   * A block allocated for `n` units keeps that size for as long as sizes are
   * kept (every buffer and world operation keeps them), so at release the
   * intended hint is exactly the byte count `_init_dynamic` allocated for it,
   * and the hint as written is not.
   */
  lemma ReleaseHintMatchesAllocation(n: nat, h: Heap, h': Heap, header: nat, width: nat)
    requires HeapOk(h) && n >= SmallSize && width in {1, 2, 4}
    requires SizesKept(PrepareStorage(n, h).heap, h')
    ensures var id := PrepareStorage(n, h).buffer.block;
      && id in h'.blocks
      && ReleaseHint(h'.blocks[id], header, width) == AllocationBytes(n, header, width)
      && ReleaseHintAsWritten(h'.blocks[id].size, header, width) != AllocationBytes(n, header, width)
  {
    var id := PrepareStorage(n, h).buffer.block;
    assert h'.blocks[id].size == n;
    ReleaseHintMismatch(n, header, width);
  }

  /** From a source that is not dynamic, move assignment is copy assignment. */
  lemma MoveFromNonDynamicIsCopy(dst: Buffer, src: Buffer, h: Heap)
    requires Valid(dst, h) && Valid(src, h) && Distinct(dst, src, h) && !src.Dynamic?
    ensures MoveAssign(dst, src, h).dst == CopyAssign(dst, src, h).buffer
    ensures MoveAssign(dst, src, h).heap == CopyAssign(dst, src, h).heap
    ensures MoveAssign(dst, src, h).src == src
  {
  }

  /** Growing the heap by new blocks leaves every existing buffer reading the same units. */
  lemma ExtendsKeepsContents(b: Buffer, h: Heap, h': Heap)
    requires Valid(b, h) && HeapOk(h') && Extends(h, h')
    ensures Valid(b, h') && Contents(b, h') == Contents(b, h)
  {
  }

  /**
   * Copy and move carry the logical contents over and keep every block's
   * payload: any other valid buffer reads the same units afterwards.
   */
  lemma {:induction false} ShiftKeepsContents(b: Buffer, h: Heap, h': Heap, drop: Option<BlockId>, take: Option<BlockId>)
    requires Valid(b, h) && HeapOk(h') && RefsShifted(h, h', drop, take)
    requires b.Dynamic? ==> Live(h', b.block)
    ensures Valid(b, h') && Contents(b, h') == Contents(b, h)
  {
    if b.Dynamic? {
      assert Shifted(h.blocks[b.block], h'.blocks[b.block], Ind(drop, b.block), Ind(take, b.block));
    }
  }
}

=== FILE: encodings.dfy ===
/**
 * The closed registry of encoding descriptors: utf8, utf16, utf32 and the
 * platform-dependent `wide`. Each descriptor names its code-unit type, the
 * buffer type that stores it and a canonical name; each character type maps
 * back to exactly one encoding.
 */
module Encodings {

  datatype Encoding = Utf8 | Utf16 | Utf32 | Wide

  /** Whether `_WIN32` is defined: the one platform switch the descriptors consult. */
  datatype Platform = Windows | NonWindows

  /** The C++ character types used as code units. */
  datatype CharType = Char | Char16 | Char32 | WChar

  /** `neo::code_unit_buffer<T>`, identified by its code-unit type. */
  datatype BufferType = CodeUnitBufferOf(unit: CharType)

  /** Errors a conversion can surface to the caller of `encode`. */
  datatype EncodeError =
    | ConversionFailed   // the codec reported an error or a zero required size
    | Unsupported        // no encoder exists for the pair (a compile-time error in the source)

  /** `wide::underlying`: utf16 on Windows, utf32 elsewhere. */
  function Underlying(p: Platform): (e: Encoding)
    ensures e != Wide
    ensures p == Windows ==> e == Utf16
    ensures p == NonWindows ==> e == Utf32
  {
    if p == Windows then Utf16 else Utf32
  }

  /**
   * `E::code_unit_type`: `wide` alone uses `wchar_t`; the fixed-width
   * encodings use types whose width does not depend on the platform.
   */
  function CodeUnitType(e: Encoding): (c: CharType)
    ensures c == WChar <==> e == Wide
    ensures e != Wide ==> SizeOf(c, Windows) == SizeOf(c, NonWindows)
  {
    match e
    case Utf8 => Char
    case Utf16 => Char16
    case Utf32 => Char32
    case Wide => WChar
  }

  /** `encoding_for_char_type<C>::type`; it inverts `CodeUnitType`. */
  function EncodingForCharType(c: CharType): (e: Encoding)
    ensures CodeUnitType(e) == c
  {
    match c
    case Char => Utf8
    case Char16 => Utf16
    case Char32 => Utf32
    case WChar => Wide
  }

  /** `E::buffer_type`: a code-unit buffer over the encoding's code-unit type. */
  function BufferTypeOf(e: Encoding): (bt: BufferType)
    ensures bt.unit == CodeUnitType(e)
    ensures EncodingForCharType(bt.unit) == e
  {
    CodeUnitBufferOf(CodeUnitType(e))
  }

  /**
   * `sizeof(C)` in bytes. The width of `wchar_t` is the platform's: two bytes
   * on Windows and four elsewhere, matching the encoding `wide` delegates to.
   */
  function SizeOf(c: CharType, p: Platform): (n: nat)
    ensures n in {1, 2, 4}
    ensures c == Char ==> n == 1
    ensures c == Char16 ==> n == 2
    ensures c == Char32 ==> n == 4
    ensures c == WChar && p == Windows ==> n == 2
    ensures c == WChar && p == NonWindows ==> n == 4
  {
    match c
    case Char => 1
    case Char16 => 2
    case Char32 => 4
    case WChar => if p == Windows then 2 else 4
  }

  /**
   * Bytes per code unit of an encoding: utf-N has N/8-byte units, and `wide`
   * has its underlying encoding's width on each platform.
   */
  function UnitWidth(e: Encoding, p: Platform): (n: nat)
    ensures e == Utf8 ==> n == 1
    ensures e == Utf16 ==> n == 2
    ensures e == Utf32 ==> n == 4
    ensures e == Wide && p == Windows ==> n == 2
    ensures e == Wide && p == NonWindows ==> n == 4
  {
    SizeOf(CodeUnitType(e), p)
  }

  /** The names of the three fixed-width encodings. */
  function BaseName(e: Encoding): string
    requires e != Wide
  {
    match e
    case Utf8 => "utf-8"
    case Utf16 => "utf-16"
    case Utf32 => "utf-32"
  }

  /** `E::get_name()`; `wide` answers with its underlying encoding's name. */
  function Name(e: Encoding, p: Platform): (s: string)
    ensures e == Wide ==> s == BaseName(Underlying(p))
    ensures e != Wide ==> s == BaseName(e)
  {
    if e == Wide then BaseName(Underlying(p)) else BaseName(e)
  }

  /** The code-unit type and the char-type mapping are mutually inverse. */
  lemma CharTypeBijection(e: Encoding, c: CharType)
    ensures EncodingForCharType(CodeUnitType(e)) == e
    ensures CodeUnitType(EncodingForCharType(c)) == c
  {
  }

  /** The three fixed-width encodings carry pairwise distinct names. */
  lemma BaseNamesDistinct(e1: Encoding, e2: Encoding, p: Platform)
    requires e1 != Wide && e2 != Wide && e1 != e2
    ensures Name(e1, p) != Name(e2, p)
  {
    assert BaseName(e1)[4] != BaseName(e2)[4] || |BaseName(e1)| != |BaseName(e2)|;
  }

  /** `wide` has the code-unit width of the encoding it delegates to. */
  lemma WideMatchesUnderlying(p: Platform)
    ensures UnitWidth(Wide, p) == UnitWidth(Underlying(p), p)
    ensures Name(Wide, p) == Name(Underlying(p), p)
  {
  }
}

=== FILE: legacy_ownership.dfy ===
/**
 * Ownership of dynamic blocks across all live legacy `unicode` objects, with
 * the same invariant as for `code_unit_buffer`: every dynamic object holds a
 * non-null pointer to a live block, and every live block's count equals the
 * number of objects pointing at it. Construction, copy, the (copying) move
 * constructor, copy assignment, the corrected move assignment and destruction
 * keep it; the move assignment as written does not, and the lemmas at the end
 * of this module show the inputs on which it breaks.
 */
module LegacyOwnership {
  import opened Wrappers
  import opened BlockHeap
  import opened LegacyUnicode

  datatype World = World(heap: Heap, live: seq<Unicode>)

  /** The block each live object holds a reference to. */
  function Holders(live: seq<Unicode>): seq<Option<BlockId>>
  {
    HoldersOf(live, Holder)
  }

  predicate Ok(w: World)
  {
    && HeapOk(w.heap)
    && (forall i :: 0 <= i < |w.live| ==> Shaped(w.live[i]))
    && RefsMatch(w.heap, Holders(w.live))
  }

  lemma OkValid(w: World, i: nat)
    requires Ok(w) && i < |w.live|
    ensures Valid(w.live[i], w.heap)
  {
    if w.live[i].UDynamic? {
      assert Holders(w.live)[i] == w.live[i].block;
    }
  }

  /** Object `k` of `w` reads the same units as object `k'` of `w'`. */
  predicate SameContents(w: World, w': World, k: nat, k': nat)
    requires Ok(w) && Ok(w') && k < |w.live| && k' < |w'.live|
  {
    OkValid(w, k);
    OkValid(w', k');
    Contents(w'.live[k'], w'.heap) == Contents(w.live[k], w.heap)
  }

  /** In a world that is `Ok`, two different slots are distinct objects. */
  lemma SlotsDistinct(w: World, i: nat, j: nat)
    requires Ok(w) && i < |w.live| && j < |w.live| && i != j
    ensures Valid(w.live[i], w.heap) && Valid(w.live[j], w.heap)
    ensures Distinct(w.live[i], w.live[j], w.heap)
  {
    OkValid(w, i);
    OkValid(w, j);
    var a, b := w.live[i], w.live[j];
    if a.UDynamic? && b.UDynamic? && a.block == b.block {
      CountTwo(Holders(w.live), i, j, a.block.value);
    }
  }

  /** A shift of references keeps every untouched object's contents. */
  lemma OthersKeep(w: World, w': World, drop: Option<BlockId>, take: Option<BlockId>, k: nat, k': nat)
    requires Ok(w) && Ok(w') && k < |w.live| && k' < |w'.live| && w'.live[k'] == w.live[k]
    requires RefsShifted(w.heap, w'.heap, drop, take)
    ensures SameContents(w, w', k, k')
  {
    OkValid(w, k);
    OkValid(w', k');
    LegacyUnicode.ShiftKeepsContents(w.live[k], w.heap, w'.heap, drop, take);
  }

  // ---------------------------------------------------------------------------
  // Transitions

  /** An object built by `from_utf8` (or `utf8_t::decode`) joins the world. */
  method Construct(w: World, units: seq<Unit>) returns (w': World)
    requires Ok(w)
    ensures Ok(w') && |w'.live| == |w.live| + 1
    ensures w'.live[..|w.live|] == w.live && Extends(w.heap, w'.heap)
    ensures Valid(w'.live[|w.live|], w'.heap) && Contents(w'.live[|w.live|], w'.heap) == units
    ensures w'.live[|w.live|].UDynamic? <==> |units| > SsoSize
  {
    var r := FromUtf8(units, w.heap);
    w' := World(r.heap, w.live + [r.value]);
    assert Holders(w'.live) == Holders(w.live) + [Holder(r.value)];
    AppendKeepsRefs(w.heap, r.heap, Holders(w.live), Holder(r.value));
    assert w'.live[..|w.live|] == w.live;
  }

  /** Copy construction from slot `j`. */
  method CopyNew(w: World, j: nat) returns (w': World)
    requires Ok(w) && j < |w.live|
    ensures Ok(w') && w'.live == w.live + [w.live[j]]
    ensures SameContents(w, w', j, |w.live|)
    ensures forall k :: 0 <= k < |w.live| ==> SameContents(w, w', k, k)
  {
    OkValid(w, j);
    var r := CopyConstruct(w.live[j], w.heap);
    w' := World(r.heap, w.live + [r.value]);
    assert Holders(w'.live) == Holders(w.live) + [Holder(w.live[j])];
    AppendKeepsRefs(w.heap, r.heap, Holders(w.live), Holder(w.live[j]));
    forall k | 0 <= k < |w.live| ensures SameContents(w, w', k, k) {
      OthersKeep(w, w', None, Holder(w.live[j]), k, k);
    }
  }

  /**
   * Move construction from slot `j`, as written: a copy. Slot `j` keeps its
   * value and a dynamic block gains a reference, so the invariant holds.
   */
  method MoveNew(w: World, j: nat) returns (w': World)
    requires Ok(w) && j < |w.live|
    ensures Ok(w') && w'.live == w.live + [w.live[j]]
    ensures w.live[j].UDynamic? ==> Live(w.heap, w.live[j].block.value) && Live(w'.heap, w.live[j].block.value)
    ensures w.live[j].UDynamic? ==>
              w'.heap.blocks[w.live[j].block.value].refs == w.heap.blocks[w.live[j].block.value].refs + 1
  {
    OkValid(w, j);
    var m := MoveConstruct(w.live[j], w.heap);
    w' := World(m.heap, w.live[j := m.src] + [m.dst]);
    assert w.live[j := m.src] == w.live;
    assert Holders(w'.live) == Holders(w.live) + [Holder(w.live[j])];
    AppendKeepsRefs(w.heap, m.heap, Holders(w.live), Holder(w.live[j]));
  }

  /** Copy assignment `live[i] = live[j]` for two distinct slots. */
  method Assign(w: World, i: nat, j: nat) returns (w': World)
    requires Ok(w) && i < |w.live| && j < |w.live| && i != j
    ensures Ok(w') && w'.live == w.live[i := w.live[j]]
    ensures SameContents(w, w', j, i)
    ensures forall k :: 0 <= k < |w.live| && k != i ==> SameContents(w, w', k, k)
  {
    SlotsDistinct(w, i, j);
    var r := CopyAssign(w.live[i], w.live[j], w.heap);
    w' := World(r.heap, w.live[i := r.value]);
    assert Holders(w'.live) == Holders(w.live)[i := Holder(w.live[j])];
    ReplaceKeepsRefs(w.heap, r.heap, Holders(w.live), i, Holder(w.live[j]));
    forall k | 0 <= k < |w.live| && k != i ensures SameContents(w, w', k, k) {
      OthersKeep(w, w', Holder(w.live[i]), Holder(w.live[j]), k, k);
    }
  }

  /** Move assignment `live[i] = std::move(live[j])`, corrected. */
  method MoveInto(w: World, i: nat, j: nat) returns (w': World)
    requires Ok(w) && i < |w.live| && j < |w.live| && i != j
    ensures Ok(w') && |w'.live| == |w.live|
    ensures w'.live[i] == w.live[j]
    ensures SameContents(w, w', j, i)
    ensures forall k :: 0 <= k < |w.live| && k != i && k != j ==> SameContents(w, w', k, k)
  {
    SlotsDistinct(w, i, j);
    var m := MoveAssign(w.live[i], w.live[j], w.heap);
    w' := World(m.heap, w.live[i := m.dst][j := m.src]);
    var hs := Holders(w.live);
    MoveKeepsRefs(w.heap, m.heap, hs, i, j);
    assert Holders(w'.live) == hs[i := hs[j]][j := None];
    forall k | 0 <= k < |w.live| && k != i && k != j ensures SameContents(w, w', k, k) {
      OthersKeep(w, w', Holder(w.live[i]), None, k, k);
    }
  }

  /** Destruction of slot `i`. */
  method Destroy(w: World, i: nat) returns (w': World)
    requires Ok(w) && i < |w.live|
    ensures Ok(w') && w'.live == Remove(w.live, i)
    ensures w'.heap.blocks.Keys == w.heap.blocks.Keys
    ensures w.live[i].UDynamic? ==> w.live[i].block.value in w.heap.blocks
    ensures w.live[i].UDynamic? ==>
              (w'.heap.blocks[w.live[i].block.value].freed <==> w.heap.blocks[w.live[i].block.value].refs == 1)
  {
    OkValid(w, i);
    var h' := LegacyUnicode.Destroy(w.live[i], w.heap);
    w' := World(h', Remove(w.live, i));
    HoldersRemove(w.live, i, Holder);
    RemoveKeepsRefs(w.heap, h', Holders(w.live), i);
    if w.live[i].UDynamic? {
      var id := w.live[i].block.value;
      assert Shifted(w.heap.blocks[id], h'.blocks[id], 1, 0);
    }
  }

  // ---------------------------------------------------------------------------
  // The move assignment as written

  /**
   * The world after `live[i] = std::move(live[j])` as written, or `None` when
   * it dereferences a null pointer.
   */
  function MoveAsWrittenAt(w: World, i: nat, j: nat): (r: Option<World>)
    requires Ok(w) && i < |w.live| && j < |w.live| && i != j
    ensures r.Some? ==> |r.value.live| == |w.live| && r.value.live[i] == w.live[j]
  {
    SlotsDistinct(w, i, j);
    match MoveAssignAsWritten(w.live[i], w.live[j], w.heap)
    case None => None
    case Some(m) => Some(World(m.heap, w.live[i := m.dst][j := m.src]))
  }

  /**
   * From a non-dynamic source into a dynamic destination whose block another
   * object shares: the block is released twice, so its count falls two below
   * what it was while only one holder went away, and a block shared by
   * exactly two objects is freed under the one still pointing at it.
   */
  lemma MoveAsWrittenFromSmallBreaksCount(w: World, i: nat, j: nat, k: nat)
    requires Ok(w) && i < |w.live| && j < |w.live| && k < |w.live|
    requires i != j && k != i && k != j
    requires w.live[i].UDynamic? && !w.live[j].UDynamic? && w.live[k] == w.live[i]
    ensures MoveAsWrittenAt(w, i, j).Some?
    ensures !Ok(MoveAsWrittenAt(w, i, j).value)
    ensures var id := w.live[i].block.value;
      var w' := MoveAsWrittenAt(w, i, j).value;
      && w'.live[k] == w.live[k]
      && id in w'.heap.blocks
      && (w.heap.blocks[id].refs == 2 ==> w'.heap.blocks[id].freed)
  {
    var id := w.live[i].block.value;
    var hs := Holders(w.live);
    CountTwo(hs, i, k, id);
    SlotsDistinct(w, i, j);
    var w' := MoveAsWrittenAt(w, i, j).value;
    var d := ReleaseDynamic(w.live[i], w.heap);
    var h2 := ReleaseDynamic(d.value, d.heap).heap;
    assert w'.heap == h2;
    assert h2.blocks[id].refs + 2 == w.heap.blocks[id].refs;
    var hs' := Holders(w'.live);
    assert hs' == hs[i := None][j := None];
    CountUpdate(hs, i, None, id);
    CountUpdate(hs[i := None], j, None, id);
    assert Count(hs', id) + 1 == Count(hs, id);
    assert hs'[k] == Some(id);
    if w.heap.blocks[id].refs == 2 {
      assert h2.blocks[id].freed;
    } else {
      assert h2.blocks[id].refs != Count(hs', id);
    }
  }

  /** From a non-dynamic source into the only holder of a block: the second release dereferences null. */
  lemma MoveAsWrittenFromSmallUnsharedCrashes(w: World, i: nat, j: nat)
    requires Ok(w) && i < |w.live| && j < |w.live| && i != j
    requires w.live[i].UDynamic? && !w.live[j].UDynamic?
    requires forall k :: 0 <= k < |w.live| && k != i ==> w.live[k] != w.live[i]
    ensures MoveAsWrittenAt(w, i, j).None?
  {
    var id := w.live[i].block.value;
    var hs := Holders(w.live);
    OkValid(w, i);
    CountUpdate(hs, i, None, id);
    CountAbsent(hs[i := None], id);
  }

  /**
   * From a dynamic source into a dynamic destination on another block: the
   * pointers are swapped, so the source keeps the destination's released
   * block. If that block survived, its count is one below its holders; if it
   * was freed, the source is left dynamic with a null pointer, which its
   * destructor dereferences.
   */
  lemma MoveAsWrittenFromDynamicSwaps(w: World, i: nat, j: nat)
    requires Ok(w) && i < |w.live| && j < |w.live| && i != j
    requires w.live[i].UDynamic? && w.live[j].UDynamic? && w.live[i] != w.live[j]
    ensures MoveAsWrittenAt(w, i, j).Some?
    ensures !Ok(MoveAsWrittenAt(w, i, j).value)
    ensures var w' := MoveAsWrittenAt(w, i, j).value;
      w.heap.blocks[w.live[i].block.value].refs == 1 ==> w'.live[j] == UDynamic(None)
  {
    var id := w.live[i].block.value;
    var hs := Holders(w.live);
    SlotsDistinct(w, i, j);
    var w' := MoveAsWrittenAt(w, i, j).value;
    var d := ReleaseDynamic(w.live[i], w.heap);
    assert w'.heap == d.heap && w'.live[j] == d.value;
    if d.value.block.None? {
      assert !Shaped(w'.live[j]);
    } else {
      var hs' := Holders(w'.live);
      assert hs' == hs[i := hs[j]][j := Some(id)];
      CountUpdate(hs, i, hs[j], id);
      CountUpdate(hs[i := hs[j]], j, Some(id), id);
      assert Count(hs', id) == Count(hs, id);
      assert d.heap.blocks[id].refs + 1 == w.heap.blocks[id].refs;
    }
  }
}

=== FILE: legacy_unicode.dfy ===
/**
 * The legacy `neo::unicode` class: an earlier, `char`-only version of the
 * three-mode buffer over the same kind of reference-counted heap. It differs
 * from `code_unit_buffer` in three ways that matter here:
 *   - small mode holds up to and including `SsoSize` units, with no terminator;
 *   - releasing a block nulls the pointer when it frees, but leaves the mode dynamic;
 *   - its move operations do not steal (see `MoveConstruct` and `MoveAssignAsWritten`).
 */
module LegacyUnicode {
  import opened Wrappers
  import opened BlockHeap

  /** `sso_size`: the inline capacity; no slot is kept for a terminator. */
  const SsoSize: nat := 32

  datatype Unicode =
    | ULiteral(pointer: seq<Unit>, size: nat)
    | USmall(arr: seq<Unit>, size: nat)
    | UDynamic(block: Option<BlockId>)

  /** A value together with the heap it lives over. */
  datatype UBuilt = UBuilt(value: Unicode, heap: Heap)

  /** The destination and the source of a move, and the heap afterwards. */
  datatype UMoved = UMoved(dst: Unicode, src: Unicode, heap: Heap)

  predicate Shaped(u: Unicode)
  {
    match u
    case ULiteral(p, n) => n <= |p|
    case USmall(arr, n) => |arr| == SsoSize && n <= SsoSize
    case UDynamic(o) => o.Some?
  }

  /** A dynamic value holds a non-null pointer to a live block. */
  predicate Valid(u: Unicode, h: Heap)
  {
    HeapOk(h) && Shaped(u) && (u.UDynamic? ==> Live(h, u.block.value))
  }

  function Holder(u: Unicode): Option<BlockId>
  {
    if u.UDynamic? then u.block else None
  }

  /**
   * `raw().begin()`: the memory at the active mode's pointer: the inline
   * array (no terminator slot), the block's trailing array, or the borrowed memory.
   */
  function RawBegin(u: Unicode, h: Heap): (d: seq<Unit>)
    requires Valid(u, h)
    ensures u.USmall? ==> d == u.arr && |d| == SsoSize
    ensures u.UDynamic? ==> d == h.blocks[u.block.value].arr && |d| == h.blocks[u.block.value].size + 1
    ensures u.ULiteral? ==> d == u.pointer
  {
    match u
    case ULiteral(p, _) => p
    case USmall(arr, _) => arr
    case UDynamic(o) => h.blocks[o.value].arr
  }

  /** `raw().end() - raw().begin()`: the size stored by the active mode. */
  function RawSize(u: Unicode, h: Heap): (n: nat)
    requires Valid(u, h)
    ensures n <= |RawBegin(u, h)|
  {
    match u
    case ULiteral(_, n) => n
    case USmall(_, n) => n
    case UDynamic(o) => h.blocks[o.value].size
  }

  /** `data()`, defined as `raw().begin()`. */
  function Data(u: Unicode, h: Heap): (d: seq<Unit>)
    requires Valid(u, h)
    ensures d == RawBegin(u, h)
  {
    RawBegin(u, h)
  }

  /** The units the raw view spans. */
  function Contents(u: Unicode, h: Heap): (s: seq<Unit>)
    requires Valid(u, h)
    ensures |s| == RawSize(u, h)
  {
    RawBegin(u, h)[..RawSize(u, h)]
  }

  /** The default constructor: small mode, size 0; the array is not written. */
  function Default(): (u: Unicode)
    ensures u.USmall? && Shaped(u) && u.size == 0
  {
    USmall(Uninit(SsoSize), 0)
  }

  // ---------------------------------------------------------------------------
  // Construction

  /**
   * The private range constructor: a range of at most `SsoSize` units is
   * copied into the small array with no terminator; a longer one gets a fresh
   * block with one reference, the size recorded, the units copied and a
   * terminator after them.
   */
  function FromRange(units: seq<Unit>, h: Heap): (r: UBuilt)
    requires HeapOk(h)
    ensures Valid(r.value, r.heap)
    ensures r.value.USmall? <==> |units| <= SsoSize
    ensures r.value.UDynamic? <==> |units| > SsoSize
    ensures Contents(r.value, r.heap) == units
    ensures r.value.USmall? ==> r.heap == h
    ensures r.value.UDynamic? ==> Fresh(h, r.heap, r.value.block.value)
    ensures r.value.UDynamic? ==> RawBegin(r.value, r.heap)[|units|] == 0
  {
    if |units| <= SsoSize then
      UBuilt(USmall(units + Uninit(SsoSize - |units|), |units|), h)
    else
      var (id, h1) := Allocate(h, |units|);
      var k := h1.blocks[id];
      UBuilt(UDynamic(Some(id)), h1.(blocks := h1.blocks[id := k.(arr := units + [0])]))
  }

  /** `unicode::from_utf8(first, last)`: the range constructor. */
  function FromUtf8(units: seq<Unit>, h: Heap): (r: UBuilt)
    requires HeapOk(h)
    ensures r == FromRange(units, h)
  {
    FromRange(units, h)
  }

  /** `utf8_t::decode(first, last)`: `from_utf8`, so the range constructor. */
  function Utf8Decode(units: seq<Unit>, h: Heap): (r: UBuilt)
    requires HeapOk(h)
    ensures r == FromRange(units, h)
    ensures Valid(r.value, r.heap) && Contents(r.value, r.heap) == units
  {
    FromUtf8(units, h)
  }

  /** `from_string_literal(first, len)` and the private literal constructor. */
  function FromStringLiteral(ptr: seq<Unit>, len: nat): (u: Unicode)
    requires len <= |ptr|
    ensures Shaped(u) && u.ULiteral? && Holder(u) == None
  {
    ULiteral(ptr, len)
  }

  /** The `char` array constructor: a literal over `N - 1` units. */
  function FromArray(arr: seq<Unit>): (u: Unicode)
    requires |arr| >= 1
    ensures Shaped(u) && u.ULiteral? && Holder(u) == None
  {
    FromStringLiteral(arr, |arr| - 1)
  }

  /** The `_u` suffix: `from_string_literal(ptr, len)`. */
  function LiteralU(ptr: seq<Unit>, len: nat): (u: Unicode)
    requires len <= |ptr|
    ensures u == FromStringLiteral(ptr, len)
  {
    FromStringLiteral(ptr, len)
  }

  /**
   * The `std::basic_string<char>` constructor: it delegates to the move
   * constructor on the decoded value, so the decoded temporary is copied and
   * then destroyed. The net effect is that of decoding alone.
   */
  function FromStdString(units: seq<Unit>, h: Heap): (r: UBuilt)
    requires HeapOk(h)
    ensures r == Utf8Decode(units, h)
  {
    var d := Utf8Decode(units, h);
    var m := MoveConstruct(d.value, d.heap);
    var h' := Destroy(m.src, m.heap);
    if d.value.UDynamic? then IncThenDec(d.heap, d.value.block.value); UBuilt(m.dst, h')
    else UBuilt(m.dst, h')
  }

  /** A literal's raw view is the recorded pointer and length: nothing copied. */
  lemma LiteralRawView(ptr: seq<Unit>, len: nat, h: Heap)
    requires len <= |ptr| && HeapOk(h)
    ensures Valid(LiteralU(ptr, len), h)
    ensures Data(LiteralU(ptr, len), h) == ptr && RawSize(LiteralU(ptr, len), h) == len
    ensures Contents(LiteralU(ptr, len), h) == ptr[..len]
  {
  }

  /** The array constructor does not count the array's last element. */
  lemma ArrayRawView(arr: seq<Unit>, h: Heap)
    requires |arr| >= 1 && HeapOk(h)
    ensures Valid(FromArray(arr), h)
    ensures Data(FromArray(arr), h) == arr && RawSize(FromArray(arr), h) == |arr| - 1
  {
  }

  /** The raw view of a decoded range spans exactly the units given, whatever mode was chosen. */
  lemma DecodedRawView(units: seq<Unit>, h: Heap)
    requires HeapOk(h)
    ensures var r := Utf8Decode(units, h);
      && RawSize(r.value, r.heap) == |units|
      && Data(r.value, r.heap)[..|units|] == units
  {
  }

  // ---------------------------------------------------------------------------
  // Release, copy, move

  /** `this != other`, as for `code_unit_buffer`. */
  predicate Distinct(dst: Unicode, src: Unicode, h: Heap)
    requires Valid(dst, h) && Valid(src, h)
  {
    dst.UDynamic? && src.UDynamic? && dst.block == src.block ==> h.blocks[dst.block.value].refs >= 2
  }

  /**
   * `_release_dynamic`: drop one reference; on the last one free the block and
   * null the pointer. The mode stays dynamic either way.
   */
  function ReleaseDynamic(u: Unicode, h: Heap): (r: UBuilt)
    requires Valid(u, h) && u.UDynamic?
    ensures HeapOk(r.heap) && r.value.UDynamic?
    ensures RefsShifted(h, r.heap, u.block, None)
    ensures r.value.block.None? <==> h.blocks[u.block.value].refs == 1
    ensures r.value.block.None? <==> r.heap.blocks[u.block.value].freed
    ensures r.value.block.Some? ==> r.value == u && Live(r.heap, u.block.value)
  {
    var id := u.block.value;
    UBuilt(if h.blocks[id].refs == 1 then UDynamic(None) else u, DecRef(h, id))
  }

  /** The destructor: releases in dynamic mode only. */
  function Destroy(u: Unicode, h: Heap): (h': Heap)
    requires Valid(u, h)
    ensures HeapOk(h')
    ensures RefsShifted(h, h', Holder(u), None)
    ensures !u.UDynamic? ==> h' == h
  {
    if u.UDynamic? then ReleaseDynamic(u, h).heap else h
  }

  /**
   * Copy assignment: release the destination's block, then share a dynamic
   * source's block with one more reference, or copy a literal or small source
   * by value; the destination takes the source's mode.
   */
  function CopyAssign(dst: Unicode, src: Unicode, h: Heap): (r: UBuilt)
    requires Valid(dst, h) && Valid(src, h) && Distinct(dst, src, h)
    ensures HeapOk(r.heap) && Valid(r.value, r.heap)
    ensures r.value == src
    ensures Contents(r.value, r.heap) == Contents(src, h)
    ensures RefsShifted(h, r.heap, Holder(dst), Holder(src))
  {
    var d := if dst.UDynamic? then ReleaseDynamic(dst, h) else UBuilt(dst, h);
    if src.UDynamic? then
      var h' := IncRef(d.heap, src.block.value);
      ShiftCompose(h, d.heap, h', Holder(dst), Holder(src));
      UBuilt(src, h')
    else
      UBuilt(src, d.heap)
  }

  /** The copy constructor: copy assignment into an object whose mode starts as small. */
  function CopyConstruct(src: Unicode, h: Heap): (r: UBuilt)
    requires Valid(src, h)
    ensures Valid(r.value, r.heap) && r.value == src
    ensures RefsShifted(h, r.heap, None, Holder(src))
  {
    CopyAssign(Default(), src, h)
  }

  /**
   * The move constructor as written: it tests its own mode, which is still
   * the default small one, so it always falls back to copy assignment. The
   * source is left as it was and a dynamic source's count goes up by one.
   */
  function MoveConstruct(src: Unicode, h: Heap): (r: UMoved)
    requires Valid(src, h)
    ensures r.dst == src && r.src == src && Valid(r.dst, r.heap)
    ensures RefsShifted(h, r.heap, None, Holder(src))
    ensures r == UMoved(CopyConstruct(src, h).value, src, CopyConstruct(src, h).heap)
  {
    var c := CopyAssign(Default(), src, h);
    UMoved(c.value, src, c.heap)
  }

  /**
   * Move assignment as written. The destination's block is released first;
   * then for a dynamic source the two pointers are swapped, so the source is
   * left dynamic holding the destination's old pointer: null if it was freed;
   * if the destination was not dynamic, whatever its union held (a literal's
   * pointer, which is not on the heap, or bytes of the small array), which the
   * model conservatively takes as null. For any other source it falls back to copy assignment, which
   * finds the mode still dynamic and releases the same block a second time;
   * `None` stands for the null dereference when the first release had freed it.
   */
  function MoveAssignAsWritten(dst: Unicode, src: Unicode, h: Heap): (r: Option<UMoved>)
    requires Valid(dst, h) && Valid(src, h) && Distinct(dst, src, h)
    ensures r.None? <==> !src.UDynamic? && dst.UDynamic? && h.blocks[dst.block.value].refs == 1
    ensures r.Some? ==> r.value.dst == src
    ensures r.Some? && src.UDynamic? && dst.UDynamic? ==>
              r.value.src == ReleaseDynamic(dst, h).value && r.value.heap == ReleaseDynamic(dst, h).heap
  {
    var d := if dst.UDynamic? then ReleaseDynamic(dst, h) else UBuilt(dst, h);
    if src.UDynamic? then
      Some(UMoved(src, UDynamic(if dst.UDynamic? then d.value.block else None), d.heap))
    else if d.value.UDynamic? then
      if d.value.block.None? then None
      else Some(UMoved(src, src, ReleaseDynamic(d.value, d.heap).heap))
    else
      Some(UMoved(src, src, d.heap))
  }

  /**
   * Move assignment as evidently intended, and as `code_unit_buffer` does it:
   * release the destination's block once, then steal a dynamic source's block
   * without touching its count and leave the source empty, or copy any other
   * source.
   */
  function MoveAssign(dst: Unicode, src: Unicode, h: Heap): (r: UMoved)
    requires Valid(dst, h) && Valid(src, h) && Distinct(dst, src, h)
    ensures HeapOk(r.heap) && Valid(r.dst, r.heap) && Valid(r.src, r.heap)
    ensures r.dst == src
    ensures Contents(r.dst, r.heap) == Contents(src, h)
    ensures src.UDynamic? ==> r.src == Default()
    ensures !src.UDynamic? ==> r.src == src
    ensures RefsShifted(h, r.heap, Holder(dst), None)
  {
    var d := if dst.UDynamic? then ReleaseDynamic(dst, h) else UBuilt(dst, h);
    if src.UDynamic? then
      UMoved(src, Default(), d.heap)
    else
      UMoved(src, src, d.heap)
  }

  /** A reference shift keeps what every other valid value reads. */
  lemma ShiftKeepsContents(u: Unicode, h: Heap, h': Heap, drop: Option<BlockId>, take: Option<BlockId>)
    requires Valid(u, h) && HeapOk(h') && RefsShifted(h, h', drop, take)
    requires u.UDynamic? ==> Live(h', u.block.value)
    ensures Valid(u, h') && Contents(u, h') == Contents(u, h)
  {
    if u.UDynamic? {
      var id := u.block.value;
      assert Shifted(h.blocks[id], h'.blocks[id], Ind(drop, id), Ind(take, id));
    }
  }
}

=== FILE: text.dfy ===
/**
 * `neo::basic_text<Enc>`: one code-unit buffer tagged with its internal
 * encoding. Its accessors read the buffer; its constructors choose the
 * buffer's construction path; `encode<D>()` hands back the buffer itself when
 * `D` is the internal encoding and otherwise asks `D` to convert it.
 */
module EncodedText {
  import opened Wrappers
  import opened BlockHeap
  import opened Encodings
  import B = CodeUnitBuffer
  import WideEncoder

  datatype Text = Text(enc: Encoding, buffer: B.Buffer)

  /** A text together with the heap it lives over. */
  datatype BuiltText = BuiltText(text: Text, heap: Heap)

  /** What `encode<D>()` yields: the stored buffer itself, or a conversion's outcome. */
  datatype Encoded = Same(buffer: B.Buffer) | Converted(result: Result<B.Buffer, EncodeError>)

  datatype EncodeStep = EncodeStep(out: Encoded, heap: Heap)

  predicate Valid(t: Text, h: Heap)
  {
    B.Valid(t.buffer, h)
  }

  /** Character codes of a string, as code units. */
  function Ascii(s: string): (u: seq<Unit>)
    ensures |u| == |s|
  {
    seq(|s|, i requires 0 <= i < |s| => s[i] as int)
  }

  // ---------------------------------------------------------------------------
  // Accessors

  /** `data()`: the buffer's data. */
  function Data(t: Text, h: Heap): (d: seq<Unit>)
    requires Valid(t, h)
    ensures d == B.Data(t.buffer, h)
  {
    B.Data(t.buffer, h)
  }

  /** `code_unit_size()`: the buffer's code-unit count, the length of the text's contents. */
  function CodeUnitSize(t: Text, h: Heap): (n: nat)
    requires Valid(t, h)
    ensures n == B.CodeUnitSize(t.buffer, h) && n == |B.Contents(t.buffer, h)|
  {
    B.CodeUnitSize(t.buffer, h)
  }

  /**
   * `byte_size()`: the buffer's byte size for the internal encoding's
   * code-unit width, which is the buffer's own width when `BufferType` is its
   * default `buffer_type_t<InternalEncoding>`.
   */
  function ByteSize(t: Text, p: Platform, h: Heap): (n: nat)
    requires Valid(t, h)
    ensures n == B.ByteSize(t.buffer, h, UnitWidth(t.enc, p))
    ensures n == CodeUnitSize(t, h) * UnitWidth(t.enc, p)
  {
    B.ByteSize(t.buffer, h, UnitWidth(t.enc, p))
  }

  // ---------------------------------------------------------------------------
  // Construction

  /** The default constructor: the buffer's default, an empty text. */
  function Default(enc: Encoding): (t: Text)
    ensures t.enc == enc && t.buffer == B.Empty()
  {
    Text(enc, B.Empty())
  }

  /** A default text is empty: no units, no bytes, a terminator at index 0. */
  lemma DefaultIsEmpty(enc: Encoding, p: Platform, h: Heap)
    requires HeapOk(h)
    ensures Valid(Default(enc), h)
    ensures CodeUnitSize(Default(enc), h) == 0 && ByteSize(Default(enc), p, h) == 0
    ensures Data(Default(enc), h)[0] == 0
  {
    B.DefaultIsEmpty(h);
  }

  /** The literal array constructor: the buffer's array constructor, literal mode over `N - 1` units. */
  function FromArray(enc: Encoding, arr: seq<Unit>): (t: Text)
    requires |arr| >= 1
    ensures t.enc == enc && t.buffer == B.Literal(arr, |arr| - 1)
  {
    Text(enc, B.FromArray(arr))
  }

  /** Literal `"Hello!"` gives six bytes and reads its terminator at index 6. */
  lemma HelloHasSixBytes(p: Platform, h: Heap)
    requires HeapOk(h)
    ensures Valid(FromArray(Utf8, Ascii("Hello!") + [0]), h)
    ensures ByteSize(FromArray(Utf8, Ascii("Hello!") + [0]), p, h) == 6
    ensures Data(FromArray(Utf8, Ascii("Hello!") + [0]), h)[6] == 0
  {
    B.ArrayDropsTerminator(Ascii("Hello!") + [0], h);
  }

  /**
   * The pointer constructor: the units up to the first terminator, copied by
   * the buffer's range constructor.
   */
  function FromPointer(enc: Encoding, ptr: seq<Unit>, h: Heap): (r: BuiltText)
    requires HeapOk(h) && 0 in ptr
    ensures r.text.enc == enc && Valid(r.text, r.heap) && !r.text.buffer.Literal?
    ensures CodeUnitSize(r.text, r.heap) == B.CStrLen(ptr)
    ensures B.Contents(r.text.buffer, r.heap) == ptr[..B.CStrLen(ptr)]
    ensures Data(r.text, r.heap)[B.CStrLen(ptr)] == 0
    ensures Extends(h, r.heap)
  {
    var b := B.RangeConstruct(ptr[..B.CStrLen(ptr)], h);
    BuiltText(Text(enc, b.buffer), b.heap)
  }

  /**
   * The C string `"This is a string"` gives 16 bytes, a terminator at index 16
   * and the same characters.
   */
  lemma FromCharPointerScenario(p: Platform, h: Heap)
    requires HeapOk(h)
    ensures var r := FromPointer(Utf8, Ascii("This is a string") + [0], h);
      && ByteSize(r.text, p, r.heap) == 16
      && Data(r.text, r.heap)[16] == 0
      && B.Contents(r.text.buffer, r.heap) == Ascii("This is a string")
  {
    var ptr := Ascii("This is a string") + [0];
    assert ptr[16] == 0;
    assert ptr[..16] == Ascii("This is a string");
  }

  /**
   * `from_string_literal(ptr, len)`: a default text whose buffer is then
   * move-assigned the buffer's literal, so it reads `ptr` in place.
   */
  function FromStringLiteral(enc: Encoding, ptr: seq<Unit>, len: nat, h: Heap): (r: BuiltText)
    requires HeapOk(h) && len <= |ptr|
    ensures r.text == Text(enc, B.Literal(ptr, len)) && r.heap == h
    ensures Valid(r.text, r.heap) && Data(r.text, r.heap) == ptr && CodeUnitSize(r.text, r.heap) == len
  {
    var m := B.MoveAssign(B.Empty(), B.FromStringLiteral(ptr, len), h);
    BuiltText(Text(enc, m.dst), m.heap)
  }

  // ---------------------------------------------------------------------------
  // Encoding

  /**
   * `DestEncoding::encode_from<internal>(buffer)`. Only `wide` declares
   * `encode_from`; for any other destination the pair has no converter.
   */
  function EncodeFrom(dest: Encoding, from: Encoding, buf: B.Buffer, p: Platform, codec: WideEncoder.Codec, h: Heap)
    : (r: WideEncoder.Conversion)
    requires B.Valid(buf, h)
    ensures dest == Wide ==> r == WideEncoder.EncodeFrom(from, buf, p, codec, h)
    ensures dest != Wide ==> r == WideEncoder.Conversion(Err(Unsupported), h)
  {
    if dest == Wide then WideEncoder.EncodeFrom(from, buf, p, codec, h)
    else WideEncoder.Conversion(Err(Unsupported), h)
  }

  /**
   * `encode<D>()`: the stored buffer itself when `D` is the internal
   * encoding, otherwise the destination's conversion of it. Either way the
   * text's own buffer is left as it was: a conversion only adds new blocks.
   */
  function Encode(t: Text, dest: Encoding, p: Platform, codec: WideEncoder.Codec, h: Heap): (r: EncodeStep)
    requires Valid(t, h)
    ensures r.out.Same? <==> dest == t.enc
    ensures r.out.Same? ==> r.out.buffer == t.buffer && r.heap == h
    ensures dest != t.enc ==> r.out == Converted(EncodeFrom(dest, t.enc, t.buffer, p, codec, h).result)
    ensures HeapOk(r.heap) && Extends(h, r.heap)
    ensures Valid(t, r.heap) && B.Contents(t.buffer, r.heap) == B.Contents(t.buffer, h)
  {
    if dest == t.enc then
      EncodeStep(Same(t.buffer), h)
    else
      var c := EncodeFrom(dest, t.enc, t.buffer, p, codec, h);
      B.ExtendsKeepsContents(t.buffer, h, c.heap);
      EncodeStep(Converted(c.result), c.heap)
  }

  /** Encoding to the internal encoding yields the same units, with no conversion and no allocation. */
  lemma SameEncodingIsIdentity(t: Text, p: Platform, codec: WideEncoder.Codec, h: Heap)
    requires Valid(t, h)
    ensures Encode(t, t.enc, p, codec, h).heap == h
    ensures B.Contents(Encode(t, t.enc, p, codec, h).out.buffer, h) == B.Contents(t.buffer, h)
  {
  }

  /**
   * A utf8 text encoded to `wide` hands its contents to the codec; when the
   * codec measures a non-zero size without error, the result is a buffer of
   * that many units holding what the codec wrote.
   */
  lemma Utf8ToWideConverts(t: Text, p: Platform, codec: WideEncoder.Codec, h: Heap)
    requires Valid(t, h) && t.enc == Utf8
    requires codec.measure(B.Contents(t.buffer, h)).ok
    requires WideEncoder.RequiredUnits(codec, B.Contents(t.buffer, h), p) > 0
    ensures var r := Encode(t, Wide, p, codec, h);
      && r.out.Converted? && r.out.result.Ok?
      && B.Valid(r.out.result.value, r.heap)
      && B.CodeUnitSize(r.out.result.value, r.heap) == WideEncoder.RequiredUnits(codec, B.Contents(t.buffer, h), p)
  {
    var s := B.Contents(t.buffer, h);
    assert s[..|s|] == s;
  }
}

=== FILE: wide_encoder.dfy ===
/**
 * The `wide` descriptor's conversion entry points: `wide::encode_from<From>`,
 * `encoder<utf8, wide>::encode` and `do_encode`. The transcoding itself is
 * done by an external codec (utf8rewind's `utf8towide`), which appears here
 * only through its two-phase interface: a measuring call that reports the
 * required destination size in bytes and an error flag, and a writing call
 * that produces the destination units.
 */
module WideEncoder {
  import opened Wrappers
  import opened BlockHeap
  import opened Encodings
  import opened CodeUnitBuffer

  /** The measuring call's answer: required destination bytes, and whether no error was reported. */
  datatype Measure = Measure(bytes: nat, ok: bool)

  /** The external codec, as two pure functions of the source units. */
  datatype Codec = Codec(measure: seq<Unit> -> Measure, transcode: seq<Unit> -> seq<Unit>)

  /** A conversion's outcome and the heap after it. */
  datatype Conversion = Conversion(result: Result<Buffer, EncodeError>, heap: Heap)

  /**
   * The destination storage after the codec wrote `out` into it: the codec
   * writes no more than the storage holds; slots it does not reach keep their value.
   */
  function Overlay(storage: seq<Unit>, out: seq<Unit>): (r: seq<Unit>)
    ensures |r| == |storage|
    ensures forall k :: 0 <= k < |r| ==> r[k] == (if k < |out| then out[k] else storage[k])
  {
    if |out| >= |storage| then out[..|storage|] else out + storage[|out|..]
  }

  /**
   * Every slot the codec wrote holds what it wrote; this says nothing about
   * slots past the written output, which the source leaves indeterminate.
   */
  predicate WritesPrefix(storage: seq<Unit>, out: seq<Unit>)
  {
    forall k :: 0 <= k < |storage| && k < |out| ==> storage[k] == out[k]
  }

  /** The destination size in code units: the measured bytes over `sizeof(wchar_t)`. */
  function RequiredUnits(codec: Codec, src: seq<Unit>, p: Platform): nat
  {
    codec.measure(src).bytes / UnitWidth(Wide, p)
  }

  /**
   * `encoder<utf8, wide>::do_encode(ptr, size)`: measure; throw when the
   * required size is zero or an error was reported; otherwise `fill` a buffer
   * of exactly the required size with the codec writing straight into it.
   */
  function DoEncode(ptr: seq<Unit>, size: nat, p: Platform, codec: Codec, h: Heap): (r: Conversion)
    requires HeapOk(h) && size <= |ptr|
    ensures r.result.Err? <==> RequiredUnits(codec, ptr[..size], p) == 0 || !codec.measure(ptr[..size]).ok
    ensures r.result.Err? ==> r.result.error == ConversionFailed && r.heap == h
    ensures HeapOk(r.heap) && Extends(h, r.heap)
    ensures r.result.Ok? ==> Valid(r.result.value, r.heap)
    ensures r.result.Ok? ==> CodeUnitSize(r.result.value, r.heap) == RequiredUnits(codec, ptr[..size], p)
    ensures r.result.Ok? ==> Contents(r.result.value, r.heap)
                              == Overlay(Uninit(RequiredUnits(codec, ptr[..size], p)), codec.transcode(ptr[..size]))
    ensures r.result.Ok? ==> WritesPrefix(Contents(r.result.value, r.heap), codec.transcode(ptr[..size]))
    ensures r.result.Ok? && r.result.value.Dynamic? ==> Fresh(h, r.heap, r.result.value.block)
  {
    var src := ptr[..size];
    var req := RequiredUnits(codec, src, p);
    if req == 0 || !codec.measure(src).ok then
      Conversion(Err(ConversionFailed), h)
    else
      var writer := (s: seq<Unit>) => Overlay(s, codec.transcode(src));
      var b := Fill(req, writer, h);
      Conversion(Ok(b.buffer), b.heap)
  }

  /**
   * `encoder<utf8, wide>::encode(buf)`: hands `buf.data()` and
   * `buf.code_unit_size()` to `do_encode`, so the codec sees exactly the
   * buffer's logical contents, whatever its mode.
   */
  function Utf8ToWide(buf: Buffer, p: Platform, codec: Codec, h: Heap): (r: Conversion)
    requires Valid(buf, h)
    ensures r == DoEncode(Contents(buf, h), |Contents(buf, h)|, p, codec, h)
  {
    assert Contents(buf, h)[..|Contents(buf, h)|] == Data(buf, h)[..CodeUnitSize(buf, h)];
    DoEncode(Data(buf, h), CodeUnitSize(buf, h), p, codec, h)
  }

  /**
   * `wide::encode_from<From>(buf)`, i.e. `encoder<From, wide>::encode(buf)`.
   * Only the utf8 source has an encoder; any other source encoding is a pair
   * without a converter.
   */
  function EncodeFrom(from: Encoding, buf: Buffer, p: Platform, codec: Codec, h: Heap): (r: Conversion)
    requires Valid(buf, h)
    ensures from == Utf8 ==> r == Utf8ToWide(buf, p, codec, h)
    ensures from != Utf8 ==> r == Conversion(Err(Unsupported), h)
  {
    if from == Utf8 then Utf8ToWide(buf, p, codec, h) else Conversion(Err(Unsupported), h)
  }

  /**
   * As written, `do_encode` also fails when the codec reports zero required
   * bytes without any error, which is what an empty source measures to.
   */
  lemma EmptySourceFails(buf: Buffer, p: Platform, codec: Codec, h: Heap)
    requires Valid(buf, h) && CodeUnitSize(buf, h) == 0
    requires codec.measure([]) == Measure(0, true)
    ensures Utf8ToWide(buf, p, codec, h).result == Err(ConversionFailed)
  {
    assert Contents(buf, h) == [];
  }
}

=== FILE: wrappers.dfy ===
/** Failure-compatible wrappers shared by the other modules. */
module Wrappers {

  /** An optional value: a block pointer that may be null, a lookup that may miss. */
  datatype Option<+T> = None | Some(value: T)

  /** The outcome of an operation that may fail with an error of type E. */
  datatype Result<+T, +E> = Ok(value: T) | Err(error: E)
}
